=== FILE: README.md ===
# indabom bill-of-materials core in Dafny

This project models the logic of the indabom Django application that works on bills of materials:

- **Parts.** A part is known by its *full part number*: class code, item number and variation, joined by dashes. When a part is saved with a blank item or variation number, it is numbered automatically.
- **Subpart links.** An assembly part is linked to each of its subparts by a `Subpart` row, which carries a count.
- **Indented BOM.** `Part.indented` walks those links depth-first. It produces the indented bill of materials, one line per visit.
- **Where used.** `Part.where_used` lists the assemblies a part goes into.
- **Costing.** The indented-BOM view prices every line for a build of 100 top-level units. For each line it scans the part's distributor offers for a price break. It then adds the line prices up into a unit cost, an extended cost and a completeness flag.
- **Upload.** The BOM upload replaces an assembly's subpart links with the rows of an uploaded table.

Modules, in dependency order:

| module | file | what it holds |
|---|---|---|
| `Wrappers` | wrappers.dfy | `Option` and `Result` |
| `Numbers` | numbers.dfy | Python 2's `int(s)`, the `"{0:0=Wd}"` rendering, code-point string order |
| `Parts` | parts.dfy | part records, the full part number, automatic numbering in `Part.save` |
| `Assembly` | assembly.dfy | the `Subpart` table, `filter`, `get`, `where_used` |
| `Expansion` | expansion.dfy | `Part.indented` |
| `Offers` | offers.dfy | the price-break scan over a part's offers |
| `Rollup` | rollup.dfy | the costing loop of the indented-BOM view |
| `Upload` | upload.dfy | the link replacement of `upload_part_indented` |

The database is modelled as values:

- The `Subpart` table is a sequence of `(assembly, subpart, count)` rows, in the order the database enumerates them.
- The stored parts are a sequence of `Part` records.
- Each part's distributor offers are a sequence of `(minimum order quantity, unit cost)` pairs. The distributor-part model is not part of this model, so its two fields are taken to be those of `SellerPart`. Costs are integers in units of 1/10000, matching the four decimal places of `SellerPart.unit_cost`.

The walk needs an acyclic table. The source does not check this; a cycle reachable from the top part makes it recurse until Python's recursion limit raises `RuntimeError`. The model instead takes a ghost *rank* map alongside the table. The map gives every assembly a height strictly above each of its subparts. A finite table has such a map exactly when it holds no cycle, and the recursion of the walk decreases along it.

Where the code and its documented intent differ, the model follows the code:

- A line's quantity is the count of its own link. It is not the product of the counts on the path above it.
- `Subpart.objects.get` raises when an assembly is linked twice to the same subpart. When the walk reaches such an assembly, it therefore returns `Err(MultipleObjectsReturned)`. This is modelled, not assumed away. `Expansion.IndentedFailsOnDuplicateLink` proves it for a duplicate under the top part; a duplicate under an assembly the walk never reaches does no harm.
- The order quantity comes from the *first* offer's minimum when that minimum exceeds the quantity needed. It stays that minimum even when a later, cheaper offer is the one adopted.
- The import is not atomic. The old links are deleted first. The rows before a failing row stay written.
- The unit cost includes a price for every line, the top part's own line among them. It also includes a price for intermediate assembly lines.

## Model

| member | source | states |
|---|---|---|
| Parts.FullPartNumber | bom/models.py:65-66 | the number is class, item and variation joined by dashes; when none of the three fields holds a dash, the number reads back into exactly those fields, without padding added or removed |
| Parts.SplitRender | bom/models.py:65-66 | a part number whose fields hold no dash is read back into exactly those three fields |
| Parts.RenderSplit | bom/models.py:65-66 | every string that reads back as a part number is the rendering of dash-free fields: rendering and reading are inverse |
| Parts.FullPartNumberInjective | bom/models.py:62-66 | two parts with dash-free fields share a full part number only when their (class, item, variation) keys agree |
| Parts.NextNumber | bom/models.py:107-118 | a non-blank number is kept; a blank one becomes the first number when nothing is taken; otherwise it fails exactly when the last taken number in text order does not read as an integer, and else reads back as that number plus one; the result is that number as `"{0:0=Wd}"` writes it: its decimal digits, after a minus sign when negative, zero-padded to exactly the width, or longer only when sign and digits need more room |
| Parts.AssignNumbers | bom/models.py:106-118 | saving keeps every field but item and variation; the item is numbered against the items of the part's class with width 4 and first "0001", and the variation against the variations of that class and the chosen item with width 2 and first "01"; the save fails exactly when one of these two numberings fails; both end non-blank; a part with both numbers set is unchanged |
| Parts.Successor | bom/models.py:112 | the number after `n` reads back as `n + 1` and is zero-padded to exactly the width, or longer only when the digits need more room, with a leading minus sign for a negative number |
| Parts.NextNumberIsFresh | bom/models.py:108-118 | when every existing number is a digit string of the field's width, the new number is not among them |
| Parts.AssignedItemIsFresh | bom/models.py:106-118 | a blank item in a class of four-digit items gets an item no stored part of the class has, and then the variation "01" |
| Parts.ItemsOfClass | bom/models.py:108 | the item numbers listed are exactly those of stored parts of the class |
| Parts.VariationsOf | bom/models.py:114 | the variations listed are exactly those of stored parts of the class and item |
| Numbers.ParseFormatInt | bom/models.py:112 | `int()` applied to the `"{0:0=Wd}"` rendering of n gives n back, at every width |
| Numbers.FormatInt | bom/models.py:112 | the rendering starts with a minus sign exactly for negative numbers, is digits after that, and is exactly W characters long unless sign and digits need more, in which case it is exactly sign and digits |
| Numbers.ParseInt | bom/models.py:112 | Python 2's `int()`: a non-empty digit string reads as the number it denotes; a blank or all-white-space string raises; a string holding any character other than a digit, white space, '+' or '-' raises |
| Numbers.ParseIntAccepts | bom/models.py:112 | `int()` accepts white space, an optional '+' or '-', white space after the sign, a non-empty digit string and trailing white space, and gives the digits' value with the sign applied |
| Numbers.ParsedIntHasShape | bom/models.py:112 | conversely, every string `int()` accepts has exactly that shape and reads as its signed digits, so every other string raises |
| Numbers.TextAfterDigitsRaises | bom/models.py:112 | after the digits, anything other than white space raises: white space between digits, or a sign after them |
| Numbers.SignWithoutDigitsRaises | bom/models.py:112 | a sign not followed, after optional white space, by a digit raises: a lone sign, or two signs |
| Numbers.StrayDoesNotParse | bom/models.py:112 | one character that is not a digit, white space or a sign anywhere in the text makes `int()` raise |
| Numbers.LexLe | bom/models.py:108 | the order `order_by` sorts by holds exactly when the first string is a prefix of the second or is smaller at the first position where they differ |
| Numbers.LastInOrder | bom/models.py:108 | `order_by(...).last()` returns a stored value that is greatest in code-point order |
| Numbers.LexLeDigits | bom/models.py:108-112 | on digit strings of one length, code-point order agrees with numeric order |
| Numbers.ZeroPad | bom/models.py:112 | zero padding reaches the width without changing the number denoted |
| Assembly.Filter | bom/models.py:75 | `filter` returns only rows of the table, exactly the selected ones, and is no longer than the table |
| Assembly.FilterCounts | bom/models.py:75 | `filter` returns each selected row as often as the table holds it and no other row |
| Assembly.FilterConcat | bom/models.py:75 | filtering keeps table order: the filter of two runs of rows is the filter of the first followed by the filter of the second |
| Assembly.ChildEdges | bom/models.py:93-96 | `part.subparts.all()` comes from exactly the links whose assembly is the part |
| Assembly.Get | bom/models.py:97 | `get` returns the one matching link, raises DoesNotExist exactly when no link matches, and raises MultipleObjectsReturned exactly when two or more match |
| Assembly.GetFindsEveryLink | bom/models.py:97 | `get` finds every link of the table exactly when no (assembly, subpart) pair is linked twice |
| Assembly.DuplicatePairFails | bom/models.py:97 | a pair linked twice makes `get` raise MultipleObjectsReturned |
| Assembly.WhereUsed | bom/models.py:74-77 | one entry per link whose subpart is the part, in the order of the link table, and an assembly is listed exactly when such a link comes from it |
| Assembly.WhereUsedCounts | bom/models.py:74-77 | where_used lists an assembly once per link from it to the part, duplicates included |
| Assembly.WhereUsedInvertsSubparts | bom/models.py:74-77 | an assembly is listed for a part exactly when one of the assembly's links leads to that part |
| Expansion.Indented | bom/models.py:83-104 | the first line is the top part with quantity 1, level 0 and no link; every later line comes through a table link, shows that link's subpart and count, and sits at level 1 or below; a part without subparts yields one line |
| Expansion.ExpandPart | bom/models.py:84-99 | the part's own line comes first, and every line below it comes through a link and sits deeper |
| Expansion.ExpandLinks | bom/models.py:96-99 | the walks below an assembly's links: every line comes through a table link, shows that link's subpart and count, and sits at the subparts' level or deeper; no links give no lines |
| Expansion.IndentedSucceeds | bom/models.py:97 | with at most one link per (assembly, subpart) pair the walk raises nothing |
| Expansion.IndentedFailsOnDuplicateLink | bom/models.py:96-97 | a top part linked twice to one subpart makes the walk raise MultipleObjectsReturned |
| Expansion.ExpandPartFailsOnlyOnDuplicates | bom/models.py:96-99 | the only exception the walk can raise is MultipleObjectsReturned |
| Expansion.IndentedIsWellNested | bom/models.py:85-99 | every line after the first has its parent line earlier in the list, one level up, showing the assembly of the line's link (pre-order) |
| Expansion.IndentedEnumeratesPaths | bom/models.py:83-104 | with unique pairs the walk emits exactly one line per path of links from the top part, in pre-order, each showing its last link's own count and the path's length as its level; the paths listed are exactly the paths of the table, without repetition |
| Offers.Step | bom/views.py:40-48 | a turn adopts the current offer or keeps the adopted one; once an offer is adopted the order quantity no longer changes and the price never rises |
| Offers.Scan | bom/views.py:40-48 | after n turns: with none, nothing is adopted and the need is ordered; otherwise an eligible offer among the first n is adopted at its own price, and the order quantity is the first offer's minimum when that exceeds the need |
| Offers.BestOffer | bom/views.py:35-52 | the scan's outcome is the cheapest offer among the first one and the later ones whose minimum is below the quantity needed, the earliest on a tie, with the order quantity raised to the first offer's minimum when that exceeds the need; no offer is adopted exactly when there are none |
| Offers.SelectOffer | bom/views.py:36-52 | the loop as written, with the adopted offer, its price and the order quantity in three variables, ends on that same outcome |
| Offers.ScanIsBest | bom/views.py:40-48 | after any number of turns the scan holds the best outcome for the offers seen so far |
| Offers.BestOfferUnique | bom/views.py:35-52 | the declarative description fixes one outcome, so it determines the scan |
| Offers.ScanPriceNonIncreasing | bom/views.py:40-46 | once an offer is adopted, the adopted price never rises as the scan moves on |
| Offers.OnlyEligibleAdopted | bom/views.py:41 | a later offer whose minimum is not below the quantity needed is never adopted |
| Offers.OrderQuantityFor | bom/views.py:39-48 | the order quantity is never below the quantity needed, and equals it unless the first offer's minimum is larger |
| Offers.FirstMinimumSetsOrderQuantity | bom/views.py:39-48 | with offers (moq 500, 10.00) and (moq 50, 5.00) for 100 units, the second offer is adopted but 500 is ordered |
| Offers.TieKeepsEarlierOffer | bom/views.py:41 | an equal price does not replace the offer already adopted |
| Rollup.PriceLine | bom/views.py:31-55 | the extended quantity is 100 times the line's quantity; the best offer is chosen for it; the extended cost is that quantity times the chosen price, and is absent exactly when the part has no offer |
| Rollup.CostIndented | bom/views.py:22-61 | each line is priced on its own; the unit cost sums price times quantity over priced lines; the extended cost is 100 times the unit cost and equals the sum of the lines' extended costs; the costing is complete exactly when every line's part has an offer |
| Rollup.ExtendedCostIsSumOfLines | bom/views.py:55-61 | the build's extended cost is the sum of the extended costs shown on the lines |
| Rollup.CompleteMeansAllPriced | bom/views.py:55-59 | every part has an offer exactly when every line shows an extended cost |
| Rollup.UnitCost | bom/views.py:57 | the unit cost is nothing when no line is priced, and never negative when no line's share is |
| Rollup.UnitCostAdditive | bom/views.py:57 | the unit cost of two runs of lines is the sum of their unit costs |
| Rollup.UnpricedLineAddsNothing | bom/views.py:57 | a line without a price adds nothing to the unit cost, wherever it stands |
| Rollup.UnpricedLineExample | bom/views.py:55-59 | worked example: with one priced and two unpriced lines, the unpriced ones add nothing and the costing is incomplete |
| Upload.RowFields | bom/views.py:145-147 | a row has a reading exactly when it has no more cells than there are headers |
| Upload.RowFieldsKeys | bom/views.py:145-147 | the keys of a row's reading are the headers over its cells |
| Upload.RowFieldsValues | bom/views.py:145-147 | a cell is read under its header unless a later cell has the same header |
| Upload.RowStep | bom/views.py:144-161 | a row is skipped exactly when it lacks the part-number or quantity column; a written link belongs to the assembly; a stop names the row; a row that fits and has both columns writes exactly the link its cells request, and stops exactly when that request fails; such a stop is `NoSuchSubpart` exactly when the part number finds no part, which the view answers with a "failed" status, and `BadQuantity` exactly when the part is found but the quantity does not read as an integer, which raises at save |
| Upload.LinkRows | bom/views.py:144-161 | every link written belongs to the assembly, there is at most one per row, and a stop names one of the rows |
| Upload.ImportBom | bom/views.py:142-161 | after the import every link either was in the table before or belongs to the assembly, and every link of another assembly survives |
| Upload.ImportReplacesLinks | bom/views.py:142-161 | the assembly's links afterwards are exactly the ones written from the rows, in row order; none of its old links survive |
| Upload.ImportKeepsOtherAssemblies | bom/views.py:142 | every other assembly keeps its links, in the same order |
| Upload.EmptyUploadClearsAssembly | bom/views.py:142-144 | an upload without rows leaves the assembly with no links |
| Upload.Requests | bom/views.py:148 | the requesting rows all have both a part-number and a quantity cell |
| Upload.CompleteImportFollowsRows | bom/views.py:144-161 | an import that does not stop writes one link per requesting row, in row order, to the resolved part with the parsed quantity |
| Upload.GoodRowsCompleteImport | bom/views.py:144-161 | conversely, when every row fits under the headers and every requesting row's part and quantity resolve, the import does not stop |
| Upload.ImportStopsAtFirstBadRow | bom/views.py:149-161 | an import that stops does so at its first failing row, and the links of the rows before it are written and stay written |
| Upload.ApplyStopsAtFirst | bom/views.py:149-161 | the row loop, over the rows' effects: it stops exactly when some row stops, with the first stopping row's reason, after writing the links of the rows before it |
| Upload.RepeatedPartBreaksUniqueness | bom/views.py:157-161 | two rows resolving to the same part leave the assembly linked twice to it, so a later `get` on that pair raises MultipleObjectsReturned |
| Upload.RepeatedPartBreaksIndented | bom/views.py:157-161 | after such an import, indenting the assembly raises MultipleObjectsReturned |
| Upload.PartialImportKeepsEarlierRows | bom/views.py:142-155 | with a good row, a row without a quantity and a row naming an unknown part, the good row's link stays written and the import fails at the third row |

## Left out

- HTTP plumbing is left out because it is input and output, not logic. This covers login decorators, templates, responses, redirects, CSV sniffing and reading, the header line (`reader.next()`), the JSON error body, and CSV writing in the export view.
- The export view (bom/views.py:65-122) repeats the costing loop modelled by `Rollup.PriceLine` line for line. Its row rendering is output. Its crash on a line without offers (`distributor_part.distributor.name` on `None`, line 117) is not modelled.
- The part-number parser of the upload (the `convert` module) and the part lookup that follows it are not part of this model. They are the parameter `resolve` of `Upload.RowStep`. Either one raising and finding no part are both modelled as `None`. So a part number the parser raises on ends the import with `NoSuchSubpart`, where the source lets that exception escape the view.
- The octopart match, `Organization`, `UserMeta`, `Manufacturer`, `PartFile`, `home` and the unfinished `upload_parts` are left out. They are account data, a foreign service, or not logic.
- The manufacturer branch of `Part.save` (bom/models.py:119-121) is left out. It refers to an undefined `organization`.
- Null minimum order quantities and null unit costs are not modelled. The source relies on Python 2's ordering of `None` for them. Costs are exact integers in 1/10000 units rather than decimals.
- The views import `DistributorPart`, which the models file does not define. The offers are modelled on the fields of `SellerPart` (bom/models.py:149-160). They are taken in the order the database returns them, since the views apply no `order_by`.
- Expansion.Indented: requires the whole `Subpart` table to be acyclic (`Assembly.Ranked`). The source only fails on a cycle it reaches from the top part, and then with `RuntimeError` at Python's recursion limit. That outcome is not modelled.
- Expansion.Indented: has no recursion limit. An acyclic bill of materials nested about 1000 levels deep makes the source raise `RuntimeError`, where the model returns `Ok`.
- `Part.objects.filter(id=...)[0]` on a missing id raises `IndexError`. This is not modelled: the walk starts from a given part.
- `Numbers.ParseInt` accepts ASCII digits and C-locale white space only. Python 2's `int()` on a unicode string also accepts other Unicode digits and spaces.
- The database collation is not modelled: `order_by` is taken to sort in code-point order (`Numbers.LexLe`).
- Parts.AssignNumbers: does not check the `max_length` of the number fields. An item number of "9999" is followed by the five-character "10000", which the source would try to store in a four-character column.
- Parts.AssignedItemIsFresh: states freshness only for classes whose stored item numbers are all four-digit strings. Item numbers of other lengths are compared in code-point order, not numerically, so the source can then repeat a number.
- Transactions are not modelled. Every `save` and `delete` is taken to be committed at once, as in autocommit mode.

=== FILE: assembly.dfy ===
/** The assembly graph: the Subpart join table that links an assembly part to
    each of its subparts with a count, and the queries the source runs on it. */
module Assembly {
  import opened Wrappers
  import opened Parts

  /** One row of the Subpart table: `count` units of `subpart` go into one
      unit of `assembly`. */
  datatype Subpart = Subpart(assembly: PartId, subpart: PartId, count: int)

  /** The Subpart table, in the order the database enumerates it. */
  type Graph = seq<Subpart>

  /** The filters the source applies to the Subpart table. */
  datatype Query =
    | AssemblyIs(a: PartId)
    | SubpartIs(s: PartId)
    | PairIs(a: PartId, s: PartId)
    | AssemblyIsNot(a: PartId)

  predicate Selects(q: Query, e: Subpart)
  {
    match q
    case AssemblyIs(a) => e.assembly == a
    case SubpartIs(s) => e.subpart == s
    case PairIs(a, s) => e.assembly == a && e.subpart == s
    case AssemblyIsNot(a) => e.assembly != a
  }

  /** `Subpart.objects.filter(...)`: the selected rows, in table order, each
      as often as the table holds it. */
  function Filter(g: Graph, q: Query): (r: Graph)
    ensures forall e :: e in r <==> e in g && Selects(q, e)
    ensures |r| <= |g|
  {
    if |g| == 0 then []
    else (if Selects(q, g[0]) then [g[0]] else []) + Filter(g[1..], q)
  }

  /** `filter` keeps every selected row as often as the table holds it, and
      no other row. */
  lemma {:induction false} FilterCounts(g: Graph, q: Query)
    ensures forall e :: multiset(Filter(g, q))[e] == if Selects(q, e) then multiset(g)[e] else 0
  {
    if |g| > 0 {
      FilterCounts(g[1..], q);
      assert g == [g[0]] + g[1..];
    }
  }

  lemma {:induction false} FilterConcat(a: Graph, b: Graph, q: Query)
    ensures Filter(a + b, q) == Filter(a, q) + Filter(b, q)
  {
    if |a| > 0 {
      assert (a + b)[1..] == a[1..] + b;
      FilterConcat(a[1..], b, q);
    } else {
      assert a + b == b;
    }
  }

  /** The links of one assembly, in table order: `part.subparts.all()` lists
      their subpart ends. */
  function ChildEdges(g: Graph, a: PartId): (r: Graph)
    ensures forall e :: e in r <==> e in g && e.assembly == a
  {
    Filter(g, AssemblyIs(a))
  }

  datatype LookupError = DoesNotExist | MultipleObjectsReturned

  /** `Subpart.objects.get(assembly_part=a, assembly_subpart=s)`: the one
      link between a and s, or the exception `get` raises when there is none
      or more than one. */
  function Get(g: Graph, a: PartId, s: PartId): (r: Result<Subpart, LookupError>)
    ensures r.Ok? ==> r.value in g && r.value.assembly == a && r.value.subpart == s
    ensures r.Ok? ==> forall e :: e in g && e.assembly == a && e.subpart == s ==> e == r.value
    ensures r == Err(DoesNotExist) <==> forall e :: e in g ==> !(e.assembly == a && e.subpart == s)
    ensures r == Err(MultipleObjectsReturned) <==> |Filter(g, PairIs(a, s))| >= 2
  {
    var m := Filter(g, PairIs(a, s));
    if |m| == 0 then Err(DoesNotExist)
    else if |m| == 1 then assert m[0] in m; Ok(m[0])
    else assert m[0] in m; Err(MultipleObjectsReturned)
  }

  /** No two rows of the table link the same assembly to the same subpart. */
  predicate UniquePairs(g: Graph)
  {
    forall i, j :: 0 <= i < j < |g| ==> g[i].assembly != g[j].assembly || g[i].subpart != g[j].subpart
  }

  lemma {:induction false} UniqueFilterSmall(g: Graph, a: PartId, s: PartId)
    requires UniquePairs(g)
    ensures |Filter(g, PairIs(a, s))| <= 1
  {
    if |g| > 0 {
      assert UniquePairs(g[1..]) by {
        forall i, j | 0 <= i < j < |g[1..]|
          ensures g[1..][i].assembly != g[1..][j].assembly || g[1..][i].subpart != g[1..][j].subpart
        {
          assert g[1..][i] == g[i + 1] && g[1..][j] == g[j + 1];
        }
      }
      UniqueFilterSmall(g[1..], a, s);
      if Selects(PairIs(a, s), g[0]) {
        forall k | 0 <= k < |g[1..]|
          ensures !Selects(PairIs(a, s), g[1..][k])
        {
          assert g[1..][k] == g[k + 1];
        }
        FilterNone(g[1..], PairIs(a, s));
      }
    }
  }

  lemma {:induction false} FilterNone(g: Graph, q: Query)
    requires forall k :: 0 <= k < |g| ==> !Selects(q, g[k])
    ensures Filter(g, q) == []
  {
    if |g| > 0 {
      assert forall k :: 0 <= k < |g[1..]| ==> g[1..][k] == g[k + 1];
      FilterNone(g[1..], q);
    }
  }

  lemma {:induction false} TwoMatches(g: Graph, q: Query, i: nat, j: nat)
    requires i < j < |g| && Selects(q, g[i]) && Selects(q, g[j])
    ensures |Filter(g, q)| >= 2
  {
    if i == 0 {
      assert g[j] in g[1..] by { assert g[1..][j - 1] == g[j]; }
      assert g[j] in Filter(g[1..], q);
    } else {
      assert g[1..][i - 1] == g[i] && g[1..][j - 1] == g[j];
      TwoMatches(g[1..], q, i - 1, j - 1);
    }
  }

  /** `get` finds every link exactly when no assembly is linked twice to the
      same subpart; otherwise it raises on the duplicated pair. */
  lemma {:induction false} GetFindsEveryLink(g: Graph)
    ensures UniquePairs(g) <==> forall e :: e in g ==> Get(g, e.assembly, e.subpart) == Ok(e)
  {
    if UniquePairs(g) {
      forall e | e in g
        ensures Get(g, e.assembly, e.subpart) == Ok(e)
      {
        UniqueFilterSmall(g, e.assembly, e.subpart);
        assert e in Filter(g, PairIs(e.assembly, e.subpart));
      }
    } else {
      var i, j :| 0 <= i < j < |g| && g[i].assembly == g[j].assembly && g[i].subpart == g[j].subpart;
      DuplicatePairFails(g, i, j);
      assert g[i] in g;
    }
  }

  /** Two links between the same assembly and subpart make `get` raise. */
  lemma DuplicatePairFails(g: Graph, i: nat, j: nat)
    requires i < j < |g| && g[i].assembly == g[j].assembly && g[i].subpart == g[j].subpart
    ensures Get(g, g[i].assembly, g[i].subpart) == Err(MultipleObjectsReturned)
  {
    TwoMatches(g, PairIs(g[i].assembly, g[i].subpart), i, j);
  }

  /** A topological height for the parts the table links: every assembly sits
      strictly above each of its subparts. A finite table has such a height
      exactly when it holds no cycle. */
  ghost predicate Ranked(g: Graph, rank: map<PartId, nat>)
  {
    forall e :: e in g ==> e.assembly in rank && e.subpart in rank && rank[e.subpart] < rank[e.assembly]
  }

  /** The assembly ends of a list of links, in order. */
  function Assemblies(links: Graph): (r: seq<PartId>)
    ensures |r| == |links|
    ensures forall i :: 0 <= i < |links| ==> r[i] == links[i].assembly
    ensures forall a :: a in r <==> exists e :: e in links && e.assembly == a
  {
    if |links| == 0 then []
    else
      assert forall e :: e in links <==> e == links[0] || e in links[1..];
      [links[0].assembly] + Assemblies(links[1..])
  }

  /** `Part.where_used`: the assembly of every link whose subpart is p, one
      entry per link, in table order. */
  function WhereUsed(g: Graph, p: PartId): (r: seq<PartId>)
    ensures |r| == |Filter(g, SubpartIs(p))|
    ensures forall i :: 0 <= i < |r| ==> r[i] == Filter(g, SubpartIs(p))[i].assembly
    ensures forall a :: a in r <==> exists e :: e in g && e.subpart == p && e.assembly == a
  {
    Assemblies(Filter(g, SubpartIs(p)))
  }

  /** where_used lists each assembly once for every link from it to p. */
  lemma {:induction false} WhereUsedCounts(g: Graph, p: PartId, a: PartId)
    ensures multiset(WhereUsed(g, p))[a] == |Filter(g, PairIs(a, p))|
  {
    if |g| > 0 {
      WhereUsedCounts(g[1..], p, a);
      var rest := Filter(g[1..], SubpartIs(p));
      if Selects(SubpartIs(p), g[0]) {
        assert Filter(g, SubpartIs(p)) == [g[0]] + rest;
        assert ([g[0]] + rest)[1..] == rest;
        assert WhereUsed(g, p) == [g[0].assembly] + WhereUsed(g[1..], p);
      } else {
        assert Filter(g, SubpartIs(p)) == rest;
      }
    }
  }

  /** where_used is the inverse of the subpart relation: a is listed for p
      exactly when one of a's links leads to p. */
  lemma WhereUsedInvertsSubparts(g: Graph, p: PartId, a: PartId)
    ensures a in WhereUsed(g, p) <==> exists e :: e in ChildEdges(g, a) && e.subpart == p
  {
    WhereUsedCounts(g, p, a);
    var m := Filter(g, PairIs(a, p));
    if |m| > 0 {
      assert m[0] in m;
      assert m[0] in ChildEdges(g, a);
    }
  }
}

=== FILE: expansion.dfy ===
/** `Part.indented`: the indented bill of materials of an assembly, a
    pre-order walk of the Subpart table that emits one line per visit. */
module Expansion {
  import opened Wrappers
  import opened Parts
  import opened Assembly

  /** One line of an indented bill of materials: the part, its quantity, its
      depth below the top part, and the Subpart link the walk came through
      (None on the top line). */
  datatype Line = Line(part: PartId, quantity: int, indentLevel: nat, via: Option<Subpart>)

  function Height(rank: map<PartId, nat>, p: PartId): nat
  {
    if p in rank then rank[p] else 0
  }

  /** A line reached through a link of g shows that link's subpart, and that
      link's own count as its quantity. */
  predicate FromLink(g: Graph, l: Line)
  {
    l.via.Some? && l.via.value in g && l.part == l.via.value.subpart && l.quantity == l.via.value.count
  }

  /** `indented_given_bom(bom, p, qty, level, via)`: p's own line, then for
      each subpart s of p, in table order, the walk below s, entered at the
      next level with the count of the one link `get` finds between p and s.
      An exception from `get` ends the whole walk. */
  function ExpandPart(g: Graph, ghost rank: map<PartId, nat>, p: PartId, qty: int, level: nat, via: Option<Subpart>)
    : (r: Result<seq<Line>, LookupError>)
    requires Ranked(g, rank)
    ensures r.Ok? ==> |r.value| >= 1 && r.value[0] == Line(p, qty, level, via)
    ensures r.Ok? ==> forall i :: 1 <= i < |r.value| ==> FromLink(g, r.value[i]) && r.value[i].indentLevel > level
    ensures ChildEdges(g, p) == [] ==> r == Ok([Line(p, qty, level, via)])
    decreases Height(rank, p), 1
  {
    match ExpandLinks(g, rank, p, ChildEdges(g, p), level + 1)
    case Err(e) => Err(e)
    case Ok(below) =>
      var own := Line(p, qty, level, via);
      OwnLineFirst(own, below);
      Ok([own] + below)
  }

  lemma OwnLineFirst(own: Line, below: seq<Line>)
    ensures forall i :: 1 <= i < |[own] + below| ==> ([own] + below)[i] == below[i - 1]
    ensures below == [] ==> [own] + below == [own]
  {
  }

  /** The loop over `part.subparts.all()`: the walks below the subpart ends
      of `links`, one after another. */
  function ExpandLinks(g: Graph, ghost rank: map<PartId, nat>, parent: PartId, links: Graph, level: nat)
    : (r: Result<seq<Line>, LookupError>)
    requires Ranked(g, rank)
    ensures r.Ok? ==> forall i :: 0 <= i < |r.value| ==> FromLink(g, r.value[i]) && r.value[i].indentLevel >= level
    ensures links == [] ==> r == Ok([])
    decreases Height(rank, parent), 0, |links|
  {
    if |links| == 0 then Ok([])
    else
      match Get(g, parent, links[0].subpart)
      case Err(e) => Err(e)
      case Ok(link) =>
        match ExpandPart(g, rank, link.subpart, link.count, level, Some(link))
        case Err(e) => Err(e)
        case Ok(first) =>
          match ExpandLinks(g, rank, parent, links[1..], level)
          case Err(e) => Err(e)
          case Ok(others) => Ok(first + others)
  }

  /** `Part.indented`: the walk from the top part, whose line has quantity 1,
      indent level 0 and no link. */
  function Indented(g: Graph, ghost rank: map<PartId, nat>, root: PartId): (r: Result<seq<Line>, LookupError>)
    requires Ranked(g, rank)
    ensures r.Ok? ==> |r.value| >= 1 && r.value[0] == Line(root, 1, 0, None)
    ensures r.Ok? ==> forall i :: 1 <= i < |r.value| ==> FromLink(g, r.value[i]) && r.value[i].indentLevel >= 1
    ensures ChildEdges(g, root) == [] ==> r == Ok([Line(root, 1, 0, None)])
  {
    ExpandPart(g, rank, root, 1, 0, None)
  }

  // ----- When the walk succeeds -----

  lemma {:induction false} ExpandPartSucceeds(g: Graph, rank: map<PartId, nat>, p: PartId, qty: int, level: nat, via: Option<Subpart>)
    requires Ranked(g, rank) && UniquePairs(g)
    ensures ExpandPart(g, rank, p, qty, level, via).Ok?
    decreases Height(rank, p), 1
  {
    ExpandLinksSucceeds(g, rank, p, ChildEdges(g, p), level + 1);
  }

  lemma {:induction false} ExpandLinksSucceeds(g: Graph, rank: map<PartId, nat>, parent: PartId, links: Graph, level: nat)
    requires Ranked(g, rank) && UniquePairs(g)
    requires forall e :: e in links ==> e in g && e.assembly == parent
    ensures ExpandLinks(g, rank, parent, links, level).Ok?
    decreases Height(rank, parent), 0, |links|
  {
    if |links| > 0 {
      var link := links[0];
      assert link in links;
      GetFindsEveryLink(g);
      assert Get(g, parent, link.subpart) == Ok(link);
      ExpandPartSucceeds(g, rank, link.subpart, link.count, level, Some(link));
      ExpandLinksSucceeds(g, rank, parent, links[1..], level);
    }
  }

  /** With at most one link per (assembly, subpart) pair the walk never
      raises. */
  lemma IndentedSucceeds(g: Graph, rank: map<PartId, nat>, root: PartId)
    requires Ranked(g, rank) && UniquePairs(g)
    ensures Indented(g, rank, root).Ok?
  {
    ExpandPartSucceeds(g, rank, root, 1, 0, None);
  }

  // ----- When the walk fails -----

  lemma {:induction false} ExpandPartFailsOnlyOnDuplicates(g: Graph, rank: map<PartId, nat>, p: PartId, qty: int, level: nat, via: Option<Subpart>)
    requires Ranked(g, rank)
    ensures ExpandPart(g, rank, p, qty, level, via).Err? ==> ExpandPart(g, rank, p, qty, level, via).error == MultipleObjectsReturned
    decreases Height(rank, p), 1
  {
    ExpandLinksFailOnlyOnDuplicates(g, rank, p, ChildEdges(g, p), level + 1);
  }

  lemma {:induction false} ExpandLinksFailOnlyOnDuplicates(g: Graph, rank: map<PartId, nat>, parent: PartId, links: Graph, level: nat)
    requires Ranked(g, rank)
    requires forall e :: e in links ==> e in g && e.assembly == parent
    ensures ExpandLinks(g, rank, parent, links, level).Err? ==> ExpandLinks(g, rank, parent, links, level).error == MultipleObjectsReturned
    decreases Height(rank, parent), 0, |links|
  {
    if |links| > 0 {
      assert links[0] in links;
      match Get(g, parent, links[0].subpart)
      case Err(e) =>
      case Ok(link) =>
        ExpandPartFailsOnlyOnDuplicates(g, rank, link.subpart, link.count, level, Some(link));
        ExpandLinksFailOnlyOnDuplicates(g, rank, parent, links[1..], level);
    }
  }

  lemma {:induction false} ExpandLinksReachFailure(g: Graph, rank: map<PartId, nat>, parent: PartId, links: Graph, level: nat, k: nat)
    requires Ranked(g, rank)
    requires k < |links| && Get(g, parent, links[k].subpart).Err?
    ensures ExpandLinks(g, rank, parent, links, level).Err?
    decreases |links|
  {
    if k > 0 && Get(g, parent, links[0].subpart).Ok? {
      ExpandLinksReachFailure(g, rank, parent, links[1..], level, k - 1);
    }
  }

  /** A top part linked twice to the same subpart makes the walk raise
      `MultipleObjectsReturned`. */
  lemma IndentedFailsOnDuplicateLink(g: Graph, rank: map<PartId, nat>, root: PartId, i: nat, j: nat)
    requires Ranked(g, rank)
    requires i < j < |g| && g[i].assembly == root && g[j].assembly == root && g[i].subpart == g[j].subpart
    ensures Indented(g, rank, root) == Err(MultipleObjectsReturned)
  {
    var links := ChildEdges(g, root);
    assert g[i] in g;
    assert g[i] in links;
    var k :| 0 <= k < |links| && links[k] == g[i];
    DuplicatePairFails(g, i, j);
    ExpandLinksReachFailure(g, rank, root, links, 1, k);
    ExpandLinksFailOnlyOnDuplicates(g, rank, root, links, 1);
  }

  // ----- Reading the indentation back -----

  /** The nearest of the first i lines whose indent is below `level`. */
  function ScanBack(lines: seq<Line>, level: nat, i: nat): (r: Option<nat>)
    requires i <= |lines|
    ensures r.Some? ==> r.value < i && lines[r.value].indentLevel < level
    ensures r.Some? ==> forall k :: r.value < k < i ==> lines[k].indentLevel >= level
    ensures r.None? ==> forall k :: 0 <= k < i ==> lines[k].indentLevel >= level
  {
    if i == 0 then None
    else if lines[i - 1].indentLevel < level then Some(i - 1)
    else ScanBack(lines, level, i - 1)
  }

  /** The line a reader of an indented list puts line i under: the nearest
      line above it with a smaller indent. */
  function ParentLine(lines: seq<Line>, i: nat): Option<nat>
    requires i < |lines|
  {
    ScanBack(lines, lines[i].indentLevel, i)
  }

  lemma ScanBackFinds(lines: seq<Line>, level: nat, i: nat, j: nat)
    requires j < i <= |lines| && lines[j].indentLevel < level
    requires forall k :: j < k < i ==> lines[k].indentLevel >= level
    ensures ScanBack(lines, level, i) == Some(j)
  {
  }

  /** Line j is the line i belongs under: one level up, and showing the
      assembly of the link line i came through. */
  predicate ParentOf(lines: seq<Line>, i: nat, j: nat)
    requires i < |lines| && j < |lines|
  {
    lines[j].indentLevel + 1 == lines[i].indentLevel
    && lines[i].via.Some? && lines[j].part == lines[i].via.value.assembly
  }

  /** Line i of a block of sibling walks below `parent` at `level`: it comes
      from a link, and either it opens one of the walks (the top level of the
      block, under `parent`) or the line it reads as belonging under is its
      assembly's line. */
  ghost predicate NestedAt(g: Graph, lines: seq<Line>, i: nat, level: nat, parent: PartId)
    requires i < |lines|
  {
    FromLink(g, lines[i]) && lines[i].indentLevel >= level
    && match ParentLine(lines, i)
       case None => lines[i].indentLevel == level && lines[i].via.value.assembly == parent
       case Some(j) => ParentOf(lines, i, j)
  }

  lemma {:induction false} ExpandPartNested(g: Graph, rank: map<PartId, nat>, p: PartId, qty: int, level: nat, via: Option<Subpart>)
    requires Ranked(g, rank)
    requires ExpandPart(g, rank, p, qty, level, via).Ok?
    ensures var r := ExpandPart(g, rank, p, qty, level, via).value;
      forall i :: 1 <= i < |r| ==> ParentLine(r, i).Some? && ParentOf(r, i, ParentLine(r, i).value)
    decreases Height(rank, p), 1
  {
    var below := ExpandLinks(g, rank, p, ChildEdges(g, p), level + 1).value;
    ExpandLinksNested(g, rank, p, ChildEdges(g, p), level + 1);
    assert ExpandPart(g, rank, p, qty, level, via).value == [Line(p, qty, level, via)] + below;
    TopLineNested(g, Line(p, qty, level, via), below, level + 1, p);
  }

  /** Lines of a block of walks below `top`'s part, placed under `top`, each
      read as belonging under their assembly's line (or `top`). */
  lemma TopLineNested(g: Graph, top: Line, below: seq<Line>, level: nat, parent: PartId)
    requires level == top.indentLevel + 1 && parent == top.part
    requires forall i :: 0 <= i < |below| ==> NestedAt(g, below, i, level, parent)
    ensures var r := [top] + below;
      forall i :: 1 <= i < |r| ==> ParentLine(r, i).Some? && ParentOf(r, i, ParentLine(r, i).value)
  {
    var r := [top] + below;
    forall i | 1 <= i < |r|
      ensures ParentLine(r, i).Some? && ParentOf(r, i, ParentLine(r, i).value)
    {
      var i' := i - 1;
      assert r[i] == below[i'];
      assert NestedAt(g, below, i', level, parent);
      var lvl := r[i].indentLevel;
      match ParentLine(below, i')
      case Some(j') =>
        assert forall k :: j' + 1 < k < i ==> r[k] == below[k - 1];
        ScanBackFinds(r, lvl, i, j' + 1);
      case None =>
        assert forall k :: 0 < k < i ==> r[k] == below[k - 1];
        ScanBackFinds(r, lvl, i, 0);
    }
  }

  lemma {:induction false} ExpandLinksNested(g: Graph, rank: map<PartId, nat>, parent: PartId, links: Graph, level: nat)
    requires Ranked(g, rank)
    requires ExpandLinks(g, rank, parent, links, level).Ok?
    ensures var lines := ExpandLinks(g, rank, parent, links, level).value;
      forall i :: 0 <= i < |lines| ==> NestedAt(g, lines, i, level, parent)
    decreases Height(rank, parent), 0, |links|
  {
    if |links| > 0 {
      var link := Get(g, parent, links[0].subpart).value;
      var first := ExpandPart(g, rank, link.subpart, link.count, level, Some(link)).value;
      var others := ExpandLinks(g, rank, parent, links[1..], level).value;
      assert ExpandLinks(g, rank, parent, links, level).value == first + others;
      ExpandPartNested(g, rank, link.subpart, link.count, level, Some(link));
      ExpandLinksNested(g, rank, parent, links[1..], level);
      FirstWalkNested(g, first, others, level, parent, link);
      LaterWalksNested(g, first, others, level, parent);
    }
  }

  /** The lines of the first walk of a block keep their reading when more
      walks follow. */
  lemma FirstWalkNested(g: Graph, first: seq<Line>, others: seq<Line>, level: nat, parent: PartId, link: Subpart)
    requires link in g && link.assembly == parent
    requires |first| >= 1 && first[0] == Line(link.subpart, link.count, level, Some(link))
    requires forall i :: 1 <= i < |first| ==> FromLink(g, first[i]) && first[i].indentLevel > level
    requires forall i :: 1 <= i < |first| ==> ParentLine(first, i).Some? && ParentOf(first, i, ParentLine(first, i).value)
    ensures forall i :: 0 <= i < |first| ==> NestedAt(g, first + others, i, level, parent)
  {
    var lines := first + others;
    forall i | 0 <= i < |first|
      ensures NestedAt(g, lines, i, level, parent)
    {
      if i > 0 {
        var j := ParentLine(first, i).value;
        assert forall k :: 0 <= k <= i ==> lines[k] == first[k];
        ScanBackFinds(lines, lines[i].indentLevel, i, j);
      }
    }
  }

  /** The lines of the later walks of a block keep their reading behind a
      first walk that never climbs above the block's level. */
  lemma LaterWalksNested(g: Graph, first: seq<Line>, others: seq<Line>, level: nat, parent: PartId)
    requires forall i :: 0 <= i < |first| ==> first[i].indentLevel >= level
    requires forall i :: 0 <= i < |others| ==> NestedAt(g, others, i, level, parent)
    ensures forall i :: |first| <= i < |first| + |others| ==> NestedAt(g, first + others, i, level, parent)
  {
    var lines := first + others;
    forall i | |first| <= i < |lines|
      ensures NestedAt(g, lines, i, level, parent)
    {
      var i' := i - |first|;
      assert lines[i] == others[i'];
      assert NestedAt(g, others, i', level, parent);
      var lvl := lines[i].indentLevel;
      match ParentLine(others, i')
      case Some(j') =>
        assert forall k :: |first| + j' <= k <= i ==> lines[k] == others[k - |first|];
        ScanBackFinds(lines, lvl, i, |first| + j');
      case None =>
        assert forall k :: |first| <= k < i ==> lines[k] == others[k - |first|];
        assert forall k :: 0 <= k < i ==> lines[k].indentLevel >= lvl;
    }
  }

  /** The indented list reads back as the assembly tree: the top line
      belongs under nothing, and every other line belongs under an earlier
      line one level up, which shows the assembly of the link it came
      through. */
  lemma IndentedIsWellNested(g: Graph, rank: map<PartId, nat>, root: PartId)
    requires Ranked(g, rank)
    requires Indented(g, rank, root).Ok?
    ensures var r := Indented(g, rank, root).value;
      && ParentLine(r, 0) == None
      && forall i :: 1 <= i < |r| ==>
           ParentLine(r, i).Some? && ParentLine(r, i).value < i && ParentOf(r, i, ParentLine(r, i).value)
  {
    ExpandPartNested(g, rank, root, 1, 0, None);
  }

  // ----- One line per path -----

  /** A chain of links leading down from p: each link's assembly is the part
      the previous link (or p, for the first) leads to. */
  ghost predicate IsPathFrom(g: Graph, p: PartId, path: seq<Subpart>)
  {
    && (forall i :: 0 <= i < |path| ==> path[i] in g)
    && (|path| > 0 ==> path[0].assembly == p)
    && (forall i :: 0 < i < |path| ==> path[i].assembly == path[i - 1].subpart)
  }

  function Prepend(e: Subpart, paths: seq<seq<Subpart>>): (r: seq<seq<Subpart>>)
    ensures |r| == |paths|
    ensures forall i :: 0 <= i < |paths| ==> r[i] == [e] + paths[i]
  {
    seq(|paths|, i requires 0 <= i < |paths| => [e] + paths[i])
  }

  /** The paths from p in pre-order: the empty path, then the paths through
      each of p's links in table order. */
  ghost function PathsFrom(g: Graph, rank: map<PartId, nat>, p: PartId): seq<seq<Subpart>>
    requires Ranked(g, rank)
    decreases Height(rank, p), 1
  {
    [[]] + PathsVia(g, rank, p, ChildEdges(g, p))
  }

  ghost function PathsVia(g: Graph, rank: map<PartId, nat>, parent: PartId, links: Graph): seq<seq<Subpart>>
    requires Ranked(g, rank)
    requires forall e :: e in links ==> e in g && e.assembly == parent
    decreases Height(rank, parent), 0, |links|
  {
    if |links| == 0 then []
    else Prepend(links[0], PathsFrom(g, rank, links[0].subpart)) + PathsVia(g, rank, parent, links[1..])
  }

  /** The line the walk emits at the end of a path from the part whose line
      is `top`: the last link's subpart, that link's count, one level deeper
      per link. */
  function PathLine(top: Line, path: seq<Subpart>): Line
  {
    if |path| == 0 then top
    else
      var e := path[|path| - 1];
      Line(e.subpart, e.count, top.indentLevel + |path|, Some(e))
  }

  /** Line i of `lines` is the line at the end of path i of `paths`. */
  predicate LinesFollow(top: Line, lines: seq<Line>, paths: seq<seq<Subpart>>)
  {
    |lines| == |paths| && forall i :: 0 <= i < |lines| ==> lines[i] == PathLine(top, paths[i])
  }

  lemma FollowConcat(top: Line, a: seq<Line>, b: seq<Line>, p: seq<seq<Subpart>>, q: seq<seq<Subpart>>)
    requires LinesFollow(top, a, p) && LinesFollow(top, b, q)
    ensures LinesFollow(top, a + b, p + q)
  {
    forall i | |a| <= i < |a| + |b|
      ensures (a + b)[i] == PathLine(top, (p + q)[i])
    {
      assert (a + b)[i] == b[i - |a|] && (p + q)[i] == q[i - |a|];
    }
  }

  /** The walk below a link, seen from one level up: prefixing the link to
      each path deepens the view by one. */
  lemma FollowThroughLink(top: Line, link: Subpart, lines: seq<Line>, below: seq<seq<Subpart>>)
    requires LinesFollow(Line(link.subpart, link.count, top.indentLevel + 1, Some(link)), lines, below)
    ensures LinesFollow(top, lines, Prepend(link, below))
  {
    forall i | 0 <= i < |lines|
      ensures lines[i] == PathLine(top, Prepend(link, below)[i])
    {
      var path := below[i];
      if |path| > 0 {
        assert ([link] + path)[|path|] == path[|path| - 1];
      }
    }
  }

  lemma {:induction false} ExpandPartFollowsPaths(g: Graph, rank: map<PartId, nat>, p: PartId, qty: int, level: nat, via: Option<Subpart>)
    requires Ranked(g, rank)
    requires ExpandPart(g, rank, p, qty, level, via).Ok?
    ensures LinesFollow(Line(p, qty, level, via), ExpandPart(g, rank, p, qty, level, via).value, PathsFrom(g, rank, p))
    decreases Height(rank, p), 1
  {
    var top := Line(p, qty, level, via);
    var below := ExpandLinks(g, rank, p, ChildEdges(g, p), level + 1).value;
    var rest := PathsVia(g, rank, p, ChildEdges(g, p));
    ExpandLinksFollowPaths(g, rank, p, ChildEdges(g, p), level + 1, top);
    assert LinesFollow(top, [top], [[]]);
    FollowConcat(top, [top], below, [[]], rest);
  }

  lemma {:induction false} ExpandLinksFollowPaths(g: Graph, rank: map<PartId, nat>, parent: PartId, links: Graph, level: nat, top: Line)
    requires Ranked(g, rank)
    requires forall e :: e in links ==> e in g && e.assembly == parent
    requires ExpandLinks(g, rank, parent, links, level).Ok?
    requires top.indentLevel + 1 == level
    ensures LinesFollow(top, ExpandLinks(g, rank, parent, links, level).value, PathsVia(g, rank, parent, links))
    decreases Height(rank, parent), 0, |links|
  {
    if |links| > 0 {
      var link := links[0];
      assert link in links;
      assert Get(g, parent, link.subpart) == Ok(link);
      var first := ExpandPart(g, rank, link.subpart, link.count, level, Some(link)).value;
      var others := ExpandLinks(g, rank, parent, links[1..], level).value;
      ExpandPartFollowsPaths(g, rank, link.subpart, link.count, level, Some(link));
      FollowThroughLink(top, link, first, PathsFrom(g, rank, link.subpart));
      ExpandLinksFollowPaths(g, rank, parent, links[1..], level, top);
      FollowConcat(top, first, others, Prepend(link, PathsFrom(g, rank, link.subpart)), PathsVia(g, rank, parent, links[1..]));
    }
  }

  lemma {:induction false} PathsFromSound(g: Graph, rank: map<PartId, nat>, p: PartId)
    requires Ranked(g, rank)
    ensures forall q :: q in PathsFrom(g, rank, p) ==> IsPathFrom(g, p, q)
    decreases Height(rank, p), 1
  {
    PathsViaSound(g, rank, p, ChildEdges(g, p));
  }

  lemma {:induction false} PathsViaSound(g: Graph, rank: map<PartId, nat>, parent: PartId, links: Graph)
    requires Ranked(g, rank)
    requires forall e :: e in links ==> e in g && e.assembly == parent
    ensures forall q :: q in PathsVia(g, rank, parent, links) ==> IsPathFrom(g, parent, q) && |q| > 0 && q[0] in links
    decreases Height(rank, parent), 0, |links|
  {
    if |links| > 0 {
      var link := links[0];
      assert link in links;
      var below := PathsFrom(g, rank, link.subpart);
      PathsFromSound(g, rank, link.subpart);
      PathsViaSound(g, rank, parent, links[1..]);
      forall q: seq<Subpart> | q in Prepend(link, below)
        ensures IsPathFrom(g, parent, q) && |q| > 0 && q[0] in links
      {
        var k :| 0 <= k < |below| && q == [link] + below[k];
        assert below[k] in below;
        var tail := below[k];
        forall i | 0 < i < |q|
          ensures q[i] in g && q[i].assembly == q[i - 1].subpart
        {
          assert q[i] == tail[i - 1];
          if i > 1 {
            assert q[i - 1] == tail[i - 2];
          }
        }
      }
    }
  }

  lemma {:induction false} PathsViaComplete(g: Graph, rank: map<PartId, nat>, parent: PartId, links: Graph, e: Subpart, q: seq<Subpart>)
    requires Ranked(g, rank)
    requires forall x :: x in links ==> x in g && x.assembly == parent
    requires e in links && q in PathsFrom(g, rank, e.subpart)
    ensures [e] + q in PathsVia(g, rank, parent, links)
    decreases |links|
  {
    if links[0] == e {
      var k :| 0 <= k < |PathsFrom(g, rank, e.subpart)| && PathsFrom(g, rank, e.subpart)[k] == q;
      assert Prepend(e, PathsFrom(g, rank, e.subpart))[k] == [e] + q;
    } else {
      PathsViaComplete(g, rank, parent, links[1..], e, q);
    }
  }

  lemma {:induction false} PathsFromComplete(g: Graph, rank: map<PartId, nat>, p: PartId, q: seq<Subpart>)
    requires Ranked(g, rank)
    requires IsPathFrom(g, p, q)
    ensures q in PathsFrom(g, rank, p)
    decreases |q|
  {
    if |q| == 0 {
      assert PathsFrom(g, rank, p)[0] == q;
    } else {
      var e := q[0];
      assert e in ChildEdges(g, p);
      var tail := q[1..];
      assert IsPathFrom(g, e.subpart, tail) by {
        assert forall i :: 0 <= i < |tail| ==> tail[i] == q[i + 1];
      }
      PathsFromComplete(g, rank, e.subpart, tail);
      PathsViaComplete(g, rank, p, ChildEdges(g, p), e, tail);
      assert q == [e] + tail;
    }
  }

  predicate NoDuplicates<T(==)>(s: seq<T>)
  {
    forall i, j :: 0 <= i < j < |s| ==> s[i] != s[j]
  }

  lemma NoDuplicatesConcat<T>(a: seq<T>, b: seq<T>)
    requires NoDuplicates(a) && NoDuplicates(b)
    requires forall x :: x in a ==> x !in b
    ensures NoDuplicates(a + b)
  {
    forall i, j | 0 <= i < j < |a + b|
      ensures (a + b)[i] != (a + b)[j]
    {
      if i < |a| && j >= |a| {
        assert (a + b)[i] in a && (a + b)[j] in b;
      }
    }
  }

  lemma {:induction false} FilterKeepsUniquePairs(g: Graph, q: Query)
    requires UniquePairs(g)
    ensures UniquePairs(Filter(g, q))
  {
    if |g| > 0 {
      assert UniquePairs(g[1..]) by {
        forall i, j | 0 <= i < j < |g[1..]|
          ensures g[1..][i].assembly != g[1..][j].assembly || g[1..][i].subpart != g[1..][j].subpart
        {
          assert g[1..][i] == g[i + 1] && g[1..][j] == g[j + 1];
        }
      }
      FilterKeepsUniquePairs(g[1..], q);
      var rest := Filter(g[1..], q);
      if Selects(q, g[0]) {
        forall k | 0 <= k < |rest|
          ensures g[0].assembly != rest[k].assembly || g[0].subpart != rest[k].subpart
        {
          assert rest[k] in g[1..];
          var m :| 0 <= m < |g[1..]| && g[1..][m] == rest[k];
          assert g[m + 1] == rest[k];
        }
        assert Filter(g, q) == [g[0]] + rest;
      } else {
        assert Filter(g, q) == rest;
      }
    }
  }

  lemma {:induction false} PathsFromDistinct(g: Graph, rank: map<PartId, nat>, p: PartId)
    requires Ranked(g, rank) && UniquePairs(g)
    ensures NoDuplicates(PathsFrom(g, rank, p))
    decreases Height(rank, p), 1
  {
    FilterKeepsUniquePairs(g, AssemblyIs(p));
    PathsViaDistinct(g, rank, p, ChildEdges(g, p));
    PathsViaSound(g, rank, p, ChildEdges(g, p));
    NoDuplicatesConcat([[]], PathsVia(g, rank, p, ChildEdges(g, p)));
  }

  lemma {:induction false} PathsViaDistinct(g: Graph, rank: map<PartId, nat>, parent: PartId, links: Graph)
    requires Ranked(g, rank) && UniquePairs(g)
    requires forall e :: e in links ==> e in g && e.assembly == parent
    requires UniquePairs(links)
    ensures NoDuplicates(PathsVia(g, rank, parent, links))
    decreases Height(rank, parent), 0, |links|
  {
    if |links| > 0 {
      var link := links[0];
      assert link in links;
      var block := Prepend(link, PathsFrom(g, rank, link.subpart));
      var rest := PathsVia(g, rank, parent, links[1..]);
      PathsFromDistinct(g, rank, link.subpart);
      assert NoDuplicates(block) by {
        forall i, j | 0 <= i < j < |block|
          ensures block[i] != block[j]
        {
          assert block[i][1..] == PathsFrom(g, rank, link.subpart)[i];
          assert block[j][1..] == PathsFrom(g, rank, link.subpart)[j];
        }
      }
      assert UniquePairs(links[1..]) by {
        forall i, j | 0 <= i < j < |links[1..]|
          ensures links[1..][i].assembly != links[1..][j].assembly || links[1..][i].subpart != links[1..][j].subpart
        {
          assert links[1..][i] == links[i + 1] && links[1..][j] == links[j + 1];
        }
      }
      PathsViaDistinct(g, rank, parent, links[1..]);
      PathsViaSound(g, rank, parent, links[1..]);
      assert link !in links[1..] by {
        forall m | 0 <= m < |links[1..]|
          ensures links[1..][m] != link
        {
          assert links[1..][m] == links[m + 1];
        }
      }
      forall x | x in block
        ensures x !in rest
      {
        assert x[0] == link;
      }
      NoDuplicatesConcat(block, rest);
    }
  }

  /** With at most one link per (assembly, subpart) pair, the walk emits
      exactly one line per path from the top part, in pre-order: the line at
      the end of a path shows the path's last link, that link's own count (no
      product of the counts above it) and the path's length as its level. */
  lemma IndentedEnumeratesPaths(g: Graph, rank: map<PartId, nat>, root: PartId)
    requires Ranked(g, rank) && UniquePairs(g)
    ensures Indented(g, rank, root).Ok?
    ensures var r := Indented(g, rank, root).value;
      var paths := PathsFrom(g, rank, root);
      && |r| == |paths|
      && (forall i :: 0 <= i < |r| ==> r[i] == PathLine(Line(root, 1, 0, None), paths[i]))
      && (forall q :: q in paths <==> IsPathFrom(g, root, q))
      && NoDuplicates(paths)
  {
    IndentedSucceeds(g, rank, root);
    ExpandPartFollowsPaths(g, rank, root, 1, 0, None);
    PathsFromSound(g, rank, root);
    forall q | IsPathFrom(g, root, q)
      ensures q in PathsFrom(g, rank, root)
    {
      PathsFromComplete(g, rank, root, q);
    }
    PathsFromDistinct(g, rank, root);
  }
}

=== FILE: numbers.dfy ===
/** Decimal text as the source reads and writes it: Python 2's `int(s)` on a
    byte string, the `"{0:0=Wd}".format(n)` rendering of part numbers, and the
    code-point order that `order_by` gives to a column of digit strings. */
module Numbers {
  import opened Wrappers

  predicate IsDigit(c: char) { '0' <= c <= '9' }

  predicate AllDigits(s: string) { forall i :: 0 <= i < |s| ==> IsDigit(s[i]) }

  /** The characters C's `isspace` accepts in the "C" locale: blank, and
      tab, line feed, vertical tab, form feed and carriage return (9 to 13). */
  predicate IsSpace(c: char) { c == ' ' || 9 <= c as int <= 13 }

  predicate AllSpaces(s: string) { forall i :: 0 <= i < |s| ==> IsSpace(s[i]) }

  function DigitValue(c: char): nat
    requires IsDigit(c)
  {
    c as int - '0' as int
  }

  function DigitChar(d: nat): (c: char)
    requires d < 10
    ensures IsDigit(c) && DigitValue(c) == d
  {
    ('0' as int + d) as char
  }

  /** The number a string of decimal digits denotes, most significant first. */
  function DigitsValue(s: string): nat
    requires AllDigits(s)
  {
    if |s| == 0 then 0 else DigitsValue(s[..|s| - 1]) * 10 + DigitValue(s[|s| - 1])
  }

  /** The shortest decimal rendering of n, as `str(n)` gives it. */
  function Decimal(n: nat): (s: string)
    ensures 0 < |s| && AllDigits(s)
    ensures DigitsValue(s) == n
  {
    if n < 10 then [DigitChar(n)]
    else
      var front := Decimal(n / 10);
      assert (front + [DigitChar(n % 10)])[..|front|] == front;
      front + [DigitChar(n % 10)]
  }

  lemma {:induction false} LeadingZero(s: string)
    requires AllDigits(s)
    ensures AllDigits("0" + s) && DigitsValue("0" + s) == DigitsValue(s)
  {
    if |s| > 0 {
      var front := s[..|s| - 1];
      assert ("0" + s)[..|s|] == "0" + front;
      LeadingZero(front);
    }
  }

  /** Left-pads a digit string with zeros to at least `width` characters; the
      number it denotes does not change. */
  function ZeroPad(s: string, width: nat): (r: string)
    requires AllDigits(s)
    ensures AllDigits(r) && DigitsValue(r) == DigitsValue(s)
    ensures |r| == if |s| < width then width else |s|
    decreases width - |s|
  {
    if |s| < width then LeadingZero(s); ZeroPad("0" + s, width) else s
  }

  /** s is n written as `"{0:0=Wd}"` writes it with W = width: the digits of
      n, after a minus sign when n is negative, zero-padded so that the whole
      is exactly W long, or longer only when sign and digits need the room. */
  predicate Padded(n: int, width: nat, s: string)
  {
    if n >= 0 then AllDigits(s) && |s| == (if |Decimal(n)| < width then width else |Decimal(n)|)
    else 0 < |s| && s[0] == '-' && AllDigits(s[1..]) && |s| == (if 1 + |Decimal(-n)| < width then width else 1 + |Decimal(-n)|)
  }

  /** `"{0:0=Wd}".format(n)` with W = width: the sign first, then the digits
      zero-padded so that sign and digits together fill at least W characters. */
  function FormatInt(n: int, width: nat): (s: string)
    ensures |s| >= width && 0 < |s|
    ensures s[0] == '-' <==> n < 0
    ensures n >= 0 ==> AllDigits(s) && |s| == if |Decimal(n)| < width then width else |Decimal(n)|
    ensures n < 0 ==> AllDigits(s[1..]) && |s| == if 1 + |Decimal(-n)| < width then width else 1 + |Decimal(-n)|
    ensures Padded(n, width, s)
  {
    if n < 0 then "-" + ZeroPad(Decimal(-n), if width > 0 then width - 1 else 0)
    else ZeroPad(Decimal(n), width)
  }

  /** What is left of s after its leading white space. */
  function SkipSpaces(s: string): (t: string)
    ensures |t| <= |s|
    ensures |t| > 0 ==> !IsSpace(t[0])
    ensures AllSpaces(s) ==> t == []
  {
    if |s| > 0 && IsSpace(s[0]) then SkipSpaces(s[1..]) else s
  }

  /** Length of the run of decimal digits that s starts with. */
  function DigitRun(s: string): (k: nat)
    ensures k <= |s| && AllDigits(s[..k])
    ensures k < |s| ==> !IsDigit(s[k])
  {
    if |s| > 0 && IsDigit(s[0]) then
      var k := 1 + DigitRun(s[1..]);
      assert s[..k] == [s[0]] + s[1..][..k - 1];
      k
    else 0
  }

  /** Python 2's `int(s)` in base 10: optional white space, an optional sign,
      optional white space again (Python 2 skips it after the sign), at least
      one decimal digit, and trailing white space. Anything else raises
      `ValueError`, modelled as `None`. */
  function ParseInt(s: string): (r: Option<int>)
    ensures 0 < |s| && AllDigits(s) ==> r == Some(DigitsValue(s))
    ensures AllSpaces(s) ==> r == None
    ensures HasStray(s) ==> r == None
  {
    DigitStringParses(s);
    BlankDoesNotParse(s);
    StrayDoesNotParse(s);
    ParseSigned(SkipSpaces(s))
  }

  /** A character `int()` never accepts anywhere: not a digit, not white
      space, not a sign. */
  predicate Stray(c: char) { !IsDigit(c) && !IsSpace(c) && c != '+' && c != '-' }

  predicate HasStray(s: string) { exists i :: 0 <= i < |s| && Stray(s[i]) }

  lemma StrayDoesNotParse(s: string)
    ensures HasStray(s) ==> ParseSigned(SkipSpaces(s)) == None
  {
    if HasStray(s) {
      var i :| 0 <= i < |s| && Stray(s[i]);
      SkipSpacesKeeps(s, i);
      var t := SkipSpaces(s);
      var d := |s| - |t|;
      if |t| > 0 && (t[0] == '-' || t[0] == '+') {
        SkipSpacesKeeps(t[1..], i - d - 1);
      }
      var u := if |t| > 0 && (t[0] == '-' || t[0] == '+') then SkipSpaces(t[1..]) else t;
      assert exists m :: 0 <= m < |u| && Stray(u[m]);
      UnsignedRejectsStray(u);
    }
  }

  /** Skipping leading white space keeps every later character that is not
      white space. */
  lemma {:induction false} SkipSpacesKeeps(s: string, i: nat)
    requires i < |s| && !IsSpace(s[i])
    ensures |s| - |SkipSpaces(s)| <= i && SkipSpaces(s)[i - (|s| - |SkipSpaces(s)|)] == s[i]
  {
    if |s| > 0 && IsSpace(s[0]) {
      SkipSpacesKeeps(s[1..], i - 1);
    }
  }

  lemma UnsignedRejectsStray(u: string)
    requires exists m :: 0 <= m < |u| && Stray(u[m])
    ensures ParseUnsigned(u) == None
  {
    var m :| 0 <= m < |u| && Stray(u[m]);
    SpacesFromFails(u, DigitRun(u), m);
  }

  lemma {:induction false} SpacesFromFails(u: string, k: nat, m: nat)
    requires k <= m < |u| && !IsSpace(u[m])
    ensures !SpacesFrom(u, k)
    decreases m - k
  {
    if k < m {
      SpacesFromFails(u, k + 1, m);
    }
  }

  lemma DigitStringParses(s: string)
    ensures 0 < |s| && AllDigits(s) ==> ParseSigned(SkipSpaces(s)) == Some(DigitsValue(s))
  {
    if 0 < |s| && AllDigits(s) {
      assert !IsSpace(s[0]);
      ParseUnsignedDigits(s);
    }
  }

  lemma BlankDoesNotParse(s: string)
    ensures AllSpaces(s) ==> ParseSigned(SkipSpaces(s)) == None
  {
    if AllSpaces(s) {
      assert SkipSpaces(s) == [];
    }
  }

  /** The optional sign and what follows it. */
  function ParseSigned(t: string): Option<int>
  {
    if |t| > 0 && t[0] == '-' then Negate(ParseUnsigned(SkipSpaces(t[1..])))
    else if |t| > 0 && t[0] == '+' then ParseUnsigned(SkipSpaces(t[1..]))
    else ParseUnsigned(t)
  }

  function Negate(r: Option<int>): Option<int>
  {
    match r
    case None => None
    case Some(n) => Some(-n)
  }

  /** The digits-then-white-space tail of `int(s)`'s grammar. */
  function ParseUnsigned(u: string): Option<int>
  {
    var k := DigitRun(u);
    if k == 0 || !SpacesFrom(u, k) then None else Some(DigitsValue(u[..k]))
  }

  /** Every character of u from position i on is white space. */
  predicate SpacesFrom(u: string, i: nat)
    decreases |u| - i
  {
    i >= |u| || (IsSpace(u[i]) && SpacesFrom(u, i + 1))
  }

  /** s splits into what Python 2's `int()` accepts: white space `a`, no
      sign or one '+' or '-', white space `gap` (only after a sign), a
      non-empty digit string `d`, and white space `b`. */
  predicate IntText(s: string, a: string, sign: string, gap: string, d: string, b: string)
  {
    && s == a + sign + gap + d + b
    && AllSpaces(a) && AllSpaces(gap) && AllSpaces(b)
    && 0 < |d| && AllDigits(d)
    && (sign == "" || sign == "+" || sign == "-")
    && (sign == "" ==> gap == "")
  }

  /** The number such a text denotes. */
  function SignedValue(sign: string, d: string): int
    requires AllDigits(d)
  {
    if sign == "-" then -(DigitsValue(d) as int) else DigitsValue(d)
  }

  /** `int()` accepts every text of that shape, with its signed value:
      " 3 ", "+7", "-5\n" and Python 2's "- 5" all read as numbers. */
  lemma ParseIntAccepts(a: string, sign: string, gap: string, d: string, b: string)
    requires IntText(a + sign + gap + d + b, a, sign, gap, d, b)
    ensures ParseInt(a + sign + gap + d + b) == Some(SignedValue(sign, d))
  {
    var t := sign + (gap + (d + b));
    Regroup(a, sign, gap, d, b);
    SignedStart(sign, gap, d, b);
    SkipAllSpaces(a, t);
  }

  /** Conversely, every text `int()` accepts has that shape, and its number
      is the signed value of the digits: "1 2", "5-", "--5" and "+" raise. */
  lemma ParsedIntHasShape(s: string)
    requires ParseInt(s).Some?
    ensures exists a, sign, gap, d, b :: IntText(s, a, sign, gap, d, b) && ParseInt(s) == Some(SignedValue(sign, d))
  {
    var a := SkipSpacesSplit(s);
    var sign, gap, d, b := SignedShape(SkipSpaces(s));
    Regroup(a, sign, gap, d, b);
    assert IntText(s, a, sign, gap, d, b);
  }

  /** After the digits, anything but white space makes `int()` raise:
      "1 2", "5-" and "5x" do not read as numbers. */
  lemma TextAfterDigitsRaises(a: string, x: string, g: string, y: string)
    requires AllSpaces(a) && 0 < |x| && AllDigits(x) && AllSpaces(g)
    requires 0 < |y| && !IsSpace(y[0]) && (|g| > 0 || !IsDigit(y[0]))
    ensures ParseInt(a + x + g + y) == None
  {
    var u := x + (g + y);
    assert a + x + g + y == a + u;
    assert (g + y)[0] == if |g| > 0 then g[0] else y[0];
    SkipAllSpaces(a, u) by { assert u[0] == x[0]; }
    assert ParseSigned(u) == ParseUnsigned(u) by { assert u[0] == x[0]; }
    DigitRunPrefix(x, g + y);
    SpacesFromFails(u, |x|, |x| + |g|) by { assert u[|x| + |g|] == y[0]; }
  }

  /** A sign with no digits after it makes `int()` raise: "+", "--5" and
      "- x" do not read as numbers. */
  lemma SignWithoutDigitsRaises(a: string, sign: string, gap: string, y: string)
    requires AllSpaces(a) && (sign == "+" || sign == "-") && AllSpaces(gap)
    requires |y| == 0 || (!IsSpace(y[0]) && !IsDigit(y[0]))
    ensures ParseInt(a + sign + gap + y) == None
  {
    var t := sign + (gap + y);
    assert a + sign + gap + y == a + t;
    SkipAllSpaces(a, t) by { assert t[0] == sign[0]; }
    assert t[0] == sign[0] && t[1..] == gap + y;
    if |y| > 0 {
      SkipAllSpaces(gap, y);
    } else {
      assert gap + y == gap;
    }
    assert DigitRun(SkipSpaces(gap + y)) == 0;
  }

  lemma Regroup(a: string, sign: string, gap: string, d: string, b: string)
    ensures a + sign + gap + d + b == a + (sign + (gap + (d + b)))
  {
  }

  /** A sign, white space after it and digits with trailing white space
      read as the signed digits. */
  lemma SignedStart(sign: string, gap: string, d: string, b: string)
    requires sign == "" || sign == "+" || sign == "-"
    requires AllSpaces(gap) && (sign == "" ==> gap == "")
    requires 0 < |d| && AllDigits(d) && AllSpaces(b)
    ensures var t := sign + (gap + (d + b)); 0 < |t| && !IsSpace(t[0]) && ParseSigned(t) == Some(SignedValue(sign, d))
  {
    var t := sign + (gap + (d + b));
    UnsignedStart(d, b);
    if sign == "" {
      assert t == d + b && t[0] == d[0];
    } else {
      assert t[0] == sign[0] && t[1..] == gap + (d + b);
      SkipAllSpaces(gap, d + b) by { assert (d + b)[0] == d[0]; }
    }
  }

  /** What ParseSigned accepts is a sign, white space and an unsigned number. */
  lemma SignedShape(t: string) returns (sign: string, gap: string, d: string, b: string)
    requires ParseSigned(t).Some?
    ensures sign == "" || sign == "+" || sign == "-"
    ensures AllSpaces(gap) && (sign == "" ==> gap == "")
    ensures 0 < |d| && AllDigits(d) && AllSpaces(b)
    ensures t == sign + (gap + (d + b))
    ensures ParseSigned(t) == Some(SignedValue(sign, d))
  {
    if |t| > 0 && (t[0] == '-' || t[0] == '+') {
      sign, gap, d, b := SignFirstShape(t);
    } else {
      sign, gap := "", "";
      d, b := UnsignedShape(t);
    }
  }

  lemma SignFirstShape(t: string) returns (sign: string, gap: string, d: string, b: string)
    requires 0 < |t| && (t[0] == '-' || t[0] == '+')
    requires ParseUnsigned(SkipSpaces(t[1..])).Some?
    ensures (sign == "+" || sign == "-") && AllSpaces(gap)
    ensures 0 < |d| && AllDigits(d) && AllSpaces(b)
    ensures t == sign + (gap + (d + b))
    ensures ParseSigned(t) == Some(SignedValue(sign, d))
  {
    var rest := t[1..];
    sign := [t[0]];
    gap := SkipSpacesSplit(rest);
    d, b := UnsignedShape(SkipSpaces(rest));
    assert t == sign + rest;
  }

  /** What ParseUnsigned accepts is digits followed by white space. */
  lemma UnsignedShape(u: string) returns (d: string, b: string)
    requires ParseUnsigned(u).Some?
    ensures 0 < |d| && AllDigits(d) && AllSpaces(b) && u == d + b
    ensures ParseUnsigned(u) == Some(DigitsValue(d))
  {
    var k := DigitRun(u);
    d, b := u[..k], u[k..];
    SpacesFromAll(u, k);
    assert u == d + b;
  }

  /** Leading white space before a non-space character is skipped. */
  lemma {:induction false} SkipAllSpaces(a: string, t: string)
    requires AllSpaces(a) && 0 < |t| && !IsSpace(t[0])
    ensures SkipSpaces(a + t) == t
  {
    if |a| > 0 {
      assert (a + t)[1..] == a[1..] + t;
      SkipAllSpaces(a[1..], t);
    } else {
      assert a + t == t;
    }
  }

  /** What SkipSpaces removes is all white space, and it is a prefix. */
  lemma {:induction false} SkipSpacesSplit(s: string) returns (a: string)
    ensures AllSpaces(a) && s == a + SkipSpaces(s)
  {
    if |s| > 0 && IsSpace(s[0]) {
      var a' := SkipSpacesSplit(s[1..]);
      a := [s[0]] + a';
      assert s == [s[0]] + s[1..];
    } else {
      a := "";
    }
  }

  /** Digits followed by white space read as the digits. */
  lemma {:induction false} UnsignedStart(d: string, b: string)
    requires 0 < |d| && AllDigits(d) && AllSpaces(b)
    ensures ParseUnsigned(d + b) == Some(DigitsValue(d))
  {
    var u := d + b;
    assert |b| == 0 || IsSpace(b[0]);
    DigitRunPrefix(d, b);
    assert u[..|d|] == d;
    SpacesFromTail(u, |d|);
  }

  lemma {:induction false} DigitRunPrefix(d: string, b: string)
    requires AllDigits(d) && (|b| == 0 || !IsDigit(b[0]))
    ensures DigitRun(d + b) == |d|
  {
    if |d| > 0 {
      assert (d + b)[1..] == d[1..] + b;
      DigitRunPrefix(d[1..], b);
    } else {
      assert d + b == b;
    }
  }

  lemma {:induction false} SpacesFromTail(u: string, k: nat)
    requires k <= |u| && forall i :: k <= i < |u| ==> IsSpace(u[i])
    ensures SpacesFrom(u, k)
    decreases |u| - k
  {
    if k < |u| {
      SpacesFromTail(u, k + 1);
    }
  }

  /** SpacesFrom says what it means: the tail from k is white space. */
  lemma {:induction false} SpacesFromAll(u: string, k: nat)
    requires k <= |u| && SpacesFrom(u, k)
    ensures AllSpaces(u[k..])
    decreases |u| - k
  {
    if k < |u| {
      SpacesFromAll(u, k + 1);
      assert u[k..] == [u[k]] + u[k + 1..];
    }
  }

  lemma DigitRunOfDigits(s: string)
    requires AllDigits(s)
    ensures DigitRun(s) == |s|
  {
  }

  /** Reading back what FormatInt wrote gives the number again, at every width. */
  lemma ParseFormatInt(n: int, width: nat)
    ensures ParseInt(FormatInt(n, width)) == Some(n)
  {
    if n < 0 {
      ParseNegative(ZeroPad(Decimal(-n), if width > 0 then width - 1 else 0));
    } else {
      assert AllDigits(FormatInt(n, width));
    }
  }

  lemma {:induction false} ParseUnsignedDigits(s: string)
    requires 0 < |s| && AllDigits(s)
    ensures ParseUnsigned(s) == Some(DigitsValue(s))
  {
    DigitRunOfDigits(s);
    assert s[..|s|] == s;
  }

  lemma {:induction false} ParseNegative(digits: string)
    requires 0 < |digits| && AllDigits(digits)
    ensures ParseInt("-" + digits) == Some(-(DigitsValue(digits) as int))
  {
    var s := "-" + digits;
    assert s[1..] == digits;
    assert SkipSpaces(digits) == digits by { assert !IsSpace(digits[0]); }
    ParseUnsignedDigits(digits);
    assert ParseSigned(s) == Negate(ParseUnsigned(digits));
    assert SkipSpaces(s) == s by { assert !IsSpace(s[0]); }
    assert ParseInt(s) == ParseSigned(s);
    assert Negate(Some(DigitsValue(digits) as int)) == Some(-(DigitsValue(digits) as int));
  }

  /** a and b agree before position k and a is smaller at k. */
  predicate SmallerAt(a: string, b: string, k: nat)
  {
    k < |a| && k < |b| && a[..k] == b[..k] && a[k] < b[k]
  }

  /** Code-point order on strings, a proper prefix first: the order in which
      `order_by` lists a column of digit strings. It holds exactly when a is
      a prefix of b or a is smaller at the first position where they differ. */
  predicate LexLe(a: string, b: string)
    ensures LexLe(a, b) <==> a <= b || exists k :: SmallerAt(a, b, k)
  {
    if |a| > 0 && |b| > 0 && a[0] == b[0] then
      var r := LexLe(a[1..], b[1..]);
      assert a == [a[0]] + a[1..] && b == [b[0]] + b[1..];
      assert a[1..] <= b[1..] <==> a <= b;
      assert (exists k :: SmallerAt(a[1..], b[1..], k)) <==> (exists k :: SmallerAt(a, b, k)) by {
        forall k: nat | SmallerAt(a[1..], b[1..], k)
          ensures SmallerAt(a, b, k + 1)
        {
          assert a[..k + 1] == [a[0]] + a[1..][..k];
          assert b[..k + 1] == [b[0]] + b[1..][..k];
        }
        forall k: nat | SmallerAt(a, b, k)
          ensures k > 0 && SmallerAt(a[1..], b[1..], k - 1)
        {
          assert a[1..][..k - 1] == a[..k][1..];
          assert b[1..][..k - 1] == b[..k][1..];
        }
      }
      r
    else if |a| > 0 && |b| > 0 && a[0] < b[0] then
      assert SmallerAt(a, b, 0);
      true
    else if |a| > 0 then
      SmallerAtHead(a, b);
      false
    else
      true
  }

  /** Where a is smaller, its first character is no larger than b's. */
  lemma SmallerAtHead(a: string, b: string)
    ensures forall k :: SmallerAt(a, b, k) ==> a[0] <= b[0]
  {
    forall k: nat | SmallerAt(a, b, k)
      ensures a[0] <= b[0]
    {
      if k > 0 {
        assert a[..k][0] == b[..k][0];
      }
    }
  }

  lemma {:induction false} LexTotal(a: string, b: string)
    ensures LexLe(a, b) || LexLe(b, a)
  {
    if |a| > 0 && |b| > 0 && a[0] == b[0] {
      LexTotal(a[1..], b[1..]);
    }
  }

  lemma {:induction false} LexTransitive(a: string, b: string, c: string)
    requires LexLe(a, b) && LexLe(b, c)
    ensures LexLe(a, c)
  {
    if |a| > 0 && a[0] == b[0] && b[0] == c[0] {
      LexTransitive(a[1..], b[1..], c[1..]);
    }
  }

  lemma LexUpperBound(xs: seq<string>, m: string, x: string)
    requires forall i :: 0 <= i < |xs| ==> LexLe(xs[i], m)
    requires LexLe(m, x)
    ensures forall i :: 0 <= i < |xs| ==> LexLe(xs[i], x)
  {
    forall i | 0 <= i < |xs| {
      LexTransitive(xs[i], m, x);
    }
  }

  /** The element `order_by(...).last()` returns: a greatest element in
      code-point order. */
  function LastInOrder(xs: seq<string>): (m: string)
    requires |xs| > 0
    ensures m in xs
    ensures forall i :: 0 <= i < |xs| ==> LexLe(xs[i], m)
  {
    if |xs| == 1 then LexTotal(xs[0], xs[0]); xs[0]
    else
      var front := xs[..|xs| - 1];
      var m := LastInOrder(front);
      var x := xs[|xs| - 1];
      LexTotal(m, x);
      if LexLe(m, x) then
        LexUpperBound(front, m, x);
        LexTotal(x, x);
        x
      else
        m
  }

  function Pow10(k: nat): (r: nat)
    ensures r >= 1
  {
    if k == 0 then 1 else 10 * Pow10(k - 1)
  }

  /** The leading digit of s weighs 10^(|s|-1). */
  lemma {:induction false} DigitsValueFront(s: string)
    requires 0 < |s| && AllDigits(s)
    ensures DigitsValue(s) == DigitValue(s[0]) * Pow10(|s| - 1) + DigitsValue(s[1..])
    ensures DigitsValue(s) < Pow10(|s|)
  {
    if |s| == 1 {
      assert s[1..] == [];
      assert s[..0] == [];
    } else {
      var front := s[..|s| - 1];
      var tail := s[1..];
      DigitsValueFront(front);
      assert front[1..] == tail[..|tail| - 1];
      assert front[0] == s[0] && tail[|tail| - 1] == s[|s| - 1];
      var d, p, b, c := DigitValue(s[0]), Pow10(|s| - 2), DigitsValue(front[1..]), DigitValue(s[|s| - 1]);
      assert DigitsValue(s) == DigitsValue(front) * 10 + c;
      assert DigitsValue(tail) == b * 10 + c;
      ShiftDigit(d, p, b, c);
      assert DigitsValue(front) < p * 10;
      assert DigitsValue(s) < Pow10(|s|) by {
        assert DigitsValue(front) <= p * 10 - 1;
        assert DigitsValue(front) * 10 <= p * 100 - 10;
      }
    }
  }

  lemma ShiftDigit(d: int, p: int, b: int, c: int)
    ensures (d * p + b) * 10 + c == d * (10 * p) + (b * 10 + c)
  {
  }

  /** On digit strings of one length, code-point order is numeric order. */
  lemma {:induction false} LexLeDigits(a: string, b: string)
    requires |a| == |b| && AllDigits(a) && AllDigits(b)
    requires LexLe(a, b)
    ensures DigitsValue(a) <= DigitsValue(b)
  {
    if |a| > 0 {
      DigitsValueFront(a);
      DigitsValueFront(b);
      if a[0] < b[0] {
        var p := Pow10(|a| - 1);
        if |a| > 1 {
          DigitsValueFront(a[1..]);
        } else {
          assert a[1..] == [];
        }
        LeadingDigitDominates(DigitValue(a[0]), DigitValue(b[0]), p, DigitsValue(a[1..]), DigitsValue(b[1..]));
      } else {
        LexLeDigits(a[1..], b[1..]);
      }
    }
  }

  lemma LeadingDigitDominates(x: nat, y: nat, p: nat, restA: nat, restB: nat)
    requires x < y && restA < p
    ensures x * p + restA <= y * p + restB
  {
    assert (x + 1) * p <= y * p;
  }
}

=== FILE: offers.dfy ===
/** The price-break scan of the indented-BOM view: given a part's
    distributor offers, in the order the database returns them, and the
    quantity needed, pick the offer to buy from, its unit price and the
    quantity to order. */
module Offers {
  import opened Wrappers

  /** One distributor offer: a minimum order quantity and a unit cost. The
      distributor-part model is not part of this model; its two fields are
      taken to be those of the seller-part model, whose unit cost is a
      fixed-point number with four decimal places, counted here in 1/10000
      of a currency unit. */
  datatype Offer = Offer(minimumOrderQuantity: int, unitCost: int)

  /** The offer adopted so far: its position in the offer list and its price. */
  datatype Pick = Pick(index: nat, price: int)

  /** The outcome of the scan: the adopted offer, if any, and the quantity to
      order. */
  datatype Choice = Choice(pick: Option<Pick>, orderQuantity: int)

  /** What the scan starts from before looking at any offer: nothing adopted,
      order exactly what is needed. */
  function NoChoice(needed: int): (c: Choice)
    ensures c.pick.None? && c.orderQuantity == needed
  {
    Choice(None, needed)
  }

  /** One turn of the loop over the offers, looking at offer `j`. An offer is
      taken over the current one when its minimum order quantity is strictly
      below the quantity needed and it is strictly cheaper (or nothing is
      adopted yet); failing that, the first offer seen is adopted anyway, and
      when its minimum exceeds the quantity needed, that minimum becomes the
      quantity to order. */
  function Step(c: Choice, j: nat, o: Offer, needed: int): (r: Choice)
    ensures r.pick.Some? && (r.pick.value.index == j || r.pick == c.pick)
    ensures c.pick.Some? ==> r.orderQuantity == c.orderQuantity
    ensures c.pick.Some? ==> r.pick.value.price <= c.pick.value.price
  {
    if o.minimumOrderQuantity < needed && (c.pick.None? || o.unitCost < c.pick.value.price) then
      Choice(Some(Pick(j, o.unitCost)), c.orderQuantity)
    else if c.pick.None? then
      Choice(Some(Pick(j, o.unitCost)), if o.minimumOrderQuantity > needed then o.minimumOrderQuantity else c.orderQuantity)
    else
      c
  }

  /** The scan after its first n turns. */
  function Scan(offers: seq<Offer>, needed: int, n: nat): (r: Choice)
    requires n <= |offers|
    ensures n == 0 ==> r == NoChoice(needed)
    ensures n > 0 ==> r.pick.Some? && r.pick.value.index < n && Eligible(offers, needed, r.pick.value.index)
    ensures n > 0 ==> r.pick.value.price == offers[r.pick.value.index].unitCost
    ensures n > 0 ==> r.orderQuantity == OrderQuantityFor(offers, needed)
  {
    if n == 0 then NoChoice(needed)
    else Step(Scan(offers, needed, n - 1), n - 1, offers[n - 1], needed)
  }

  // ----- What the scan computes, stated without the loop -----

  /** An offer the scan may end on: the first offer (always adopted, whatever
      its minimum), or any later offer whose minimum is strictly below the
      quantity needed. */
  predicate Eligible(offers: seq<Offer>, needed: int, j: nat)
    requires j < |offers|
  {
    j == 0 || offers[j].minimumOrderQuantity < needed
  }

  /** The quantity to order: what is needed, unless the first offer's minimum
      is larger, in which case that minimum -- even when a later offer ends
      up adopted. */
  function OrderQuantityFor(offers: seq<Offer>, needed: int): (q: int)
    ensures q >= needed
    ensures |offers| == 0 || offers[0].minimumOrderQuantity <= needed ==> q == needed
  {
    if |offers| > 0 && offers[0].minimumOrderQuantity > needed then offers[0].minimumOrderQuantity else needed
  }

  /** `c` is the right outcome for the first n offers: with none, nothing is
      adopted and the quantity needed is ordered; otherwise the adopted offer
      is the cheapest eligible one, the earliest of them on a tie. */
  predicate BestAmong(offers: seq<Offer>, needed: int, n: nat, c: Choice)
    requires n <= |offers|
  {
    if n == 0 then c == NoChoice(needed)
    else
      && c.pick.Some?
      && c.pick.value.index < n
      && Eligible(offers, needed, c.pick.value.index)
      && c.pick.value.price == offers[c.pick.value.index].unitCost
      && (forall j :: 0 <= j < n && Eligible(offers, needed, j) ==> c.pick.value.price <= offers[j].unitCost)
      && (forall j :: 0 <= j < c.pick.value.index && Eligible(offers, needed, j) ==> c.pick.value.price < offers[j].unitCost)
      && c.orderQuantity == OrderQuantityFor(offers, needed)
  }

  predicate IsBestOffer(offers: seq<Offer>, needed: int, c: Choice)
  {
    BestAmong(offers, needed, |offers|, c)
  }

  lemma {:induction false} ScanIsBest(offers: seq<Offer>, needed: int, n: nat)
    requires n <= |offers|
    ensures BestAmong(offers, needed, n, Scan(offers, needed, n))
  {
    if n > 0 {
      var o := offers[n - 1];
      if n == 1 {
        assert Eligible(offers, needed, 0);
      } else {
        ScanIsBest(offers, needed, n - 1);
        var before := Scan(offers, needed, n - 1);
        var after := Scan(offers, needed, n);
        assert after == Step(before, n - 1, o, needed);
        if after.pick.value.index == n - 1 && after != before {
          assert o.minimumOrderQuantity < needed && o.unitCost < before.pick.value.price;
        } else {
          assert after == before;
          assert !(o.minimumOrderQuantity < needed) || before.pick.value.price <= o.unitCost;
        }
      }
    }
  }

  /** The adopted offer, price and order quantity for a list of offers. */
  function BestOffer(offers: seq<Offer>, needed: int): (c: Choice)
    ensures IsBestOffer(offers, needed, c)
    ensures c.pick.None? <==> |offers| == 0
    ensures c.orderQuantity >= needed
  {
    ScanIsBest(offers, needed, |offers|);
    Scan(offers, needed, |offers|)
  }

  /** At most one outcome fits the description, so it pins down the scan. */
  lemma BestOfferUnique(offers: seq<Offer>, needed: int, c: Choice, d: Choice)
    requires IsBestOffer(offers, needed, c) && IsBestOffer(offers, needed, d)
    ensures c == d
  {
  }

  /** The adopted offer and its price, kept apart as the view keeps them. */
  function Adopted(disty: Option<nat>, distyPrice: Option<int>): (p: Option<Pick>)
    requires disty.None? <==> distyPrice.None?
    ensures p.Some? <==> disty.Some?
    ensures p.Some? ==> p.value.index == disty.value && p.value.price == distyPrice.value
  {
    if disty.Some? then Some(Pick(disty.value, distyPrice.value)) else None
  }

  /** The loop as the view writes it, with the adopted offer, its price and
      the order quantity in three variables. */
  method SelectOffer(offers: seq<Offer>, needed: int) returns (pick: Option<Pick>, orderQuantity: int)
    ensures IsBestOffer(offers, needed, Choice(pick, orderQuantity))
    ensures Choice(pick, orderQuantity) == BestOffer(offers, needed)
  {
    var distyPrice: Option<int> := None;
    var disty: Option<nat> := None;
    orderQuantity := needed;
    var i := 0;
    while i < |offers|
      invariant i <= |offers|
      invariant disty.None? <==> distyPrice.None?
      invariant Choice(Adopted(disty, distyPrice), orderQuantity) == Scan(offers, needed, i)
    {
      var dp := offers[i];
      if dp.minimumOrderQuantity < needed && (disty.None? || dp.unitCost < distyPrice.value) {
        distyPrice := Some(dp.unitCost);
        disty := Some(i);
      } else if disty.None? {
        distyPrice := Some(dp.unitCost);
        disty := Some(i);
        if dp.minimumOrderQuantity > needed {
          orderQuantity := dp.minimumOrderQuantity;
        }
      }
      i := i + 1;
    }
    pick := Adopted(disty, distyPrice);
    ScanIsBest(offers, needed, |offers|);
  }

  /** Once an offer is adopted the price only goes down as the scan moves on. */
  lemma {:induction false} ScanPriceNonIncreasing(offers: seq<Offer>, needed: int, m: nat, n: nat)
    requires 0 < m <= n <= |offers|
    ensures Scan(offers, needed, m).pick.Some? && Scan(offers, needed, n).pick.Some?
    ensures Scan(offers, needed, n).pick.value.price <= Scan(offers, needed, m).pick.value.price
    decreases n - m
  {
    if m < n {
      ScanPriceNonIncreasing(offers, needed, m, n - 1);
    }
  }

  /** An offer whose minimum is not below the quantity needed is never
      adopted, except as the first offer. */
  lemma OnlyEligibleAdopted(offers: seq<Offer>, needed: int, j: nat)
    requires 0 < j < |offers| && offers[j].minimumOrderQuantity >= needed
    ensures BestOffer(offers, needed).pick.value.index != j
  {
  }

  /** A worked case: the first offer's minimum of 500 sets the order quantity
      even though the cheaper second offer, eligible at 100, is the one
      adopted. */
  lemma FirstMinimumSetsOrderQuantity()
    ensures BestOffer([Offer(500, 100000), Offer(50, 50000)], 100) == Choice(Some(Pick(1, 50000)), 500)
  {
    var offers := [Offer(500, 100000), Offer(50, 50000)];
    assert Scan(offers, 100, 1) == Choice(Some(Pick(0, 100000)), 500);
  }

  /** A worked case: equal prices keep the earlier offer. */
  lemma TieKeepsEarlierOffer()
    ensures BestOffer([Offer(10, 20000), Offer(20, 20000)], 100) == Choice(Some(Pick(0, 20000)), 100)
  {
    var offers := [Offer(10, 20000), Offer(20, 20000)];
    assert Scan(offers, 100, 1) == Choice(Some(Pick(0, 20000)), 100);
  }
}

=== FILE: parts.dfy ===
/** Parts of the catalogue: the part number they are known by, and how a part
    being saved gets its item and variation numbers when they are left blank. */
module Parts {
  import opened Wrappers
  import opened Numbers

  /** The database id of a part. */
  type PartId = nat

  /** A catalogue part. `classCode` is the code of its part class (class codes
      are unique, so the code stands for the class); a blank or missing item or
      variation number is the empty string. */
  datatype Part = Part(
    id: PartId,
    classCode: string,
    item: string,
    variation: string,
    description: string,
    revision: string)

  /** The three fields a part number is made of. */
  datatype PartNumber = PartNumber(classCode: string, item: string, variation: string)

  function NumberOf(p: Part): PartNumber
  {
    PartNumber(p.classCode, p.item, p.variation)
  }

  /** The three fields joined by dashes, each exactly as stored: no padding
      is added or removed. */
  function Render(n: PartNumber): string
  {
    n.classCode + "-" + n.item + "-" + n.variation
  }

  /** `Part.full_part_number`. The fields are written as stored, so when
      none of them holds a dash they read back unchanged. */
  function FullPartNumber(p: Part): (r: string)
    ensures DashFree(NumberOf(p)) ==> SplitPartNumber(r) == Some(NumberOf(p))
  {
    if DashFree(NumberOf(p)) then SplitRender(NumberOf(p)); Render(NumberOf(p))
    else Render(NumberOf(p))
  }

  /** The position of the first c in s, if any. */
  function IndexOf(s: string, c: char): (r: Option<nat>)
    ensures r.Some? ==> r.value < |s| && s[r.value] == c && c !in s[..r.value]
    ensures r.None? ==> c !in s
  {
    if |s| == 0 then None
    else if s[0] == c then Some(0)
    else match IndexOf(s[1..], c)
      case None => None
      case Some(i) =>
        assert s[..i + 1] == [s[0]] + s[1..][..i];
        Some(i + 1)
  }

  /** Reads a part number back into its three fields: exactly two dashes,
      which separate the fields. */
  function SplitPartNumber(s: string): Option<PartNumber>
  {
    match IndexOf(s, '-')
    case None => None
    case Some(i) =>
      var rest := s[i + 1..];
      match IndexOf(rest, '-')
      case None => None
      case Some(j) =>
        if '-' in rest[j + 1..] then None
        else Some(PartNumber(s[..i], rest[..j], rest[j + 1..]))
  }

  predicate DashFree(n: PartNumber)
  {
    '-' !in n.classCode && '-' !in n.item && '-' !in n.variation
  }

  lemma {:induction false} IndexOfPrefix(a: string, b: string, c: char)
    requires c !in a
    ensures IndexOf(a + [c] + b, c) == Some(|a|)
  {
    if |a| > 0 {
      assert (a + [c] + b)[1..] == a[1..] + [c] + b;
      IndexOfPrefix(a[1..], b, c);
    } else {
      assert a + [c] + b == [c] + b;
    }
  }

  /** The two sides of a dash joining a and b. */
  lemma AroundDash(a: string, b: string)
    ensures var s := a + "-" + b;
      |s| == |a| + 1 + |b| && s[|a|] == '-' && s[..|a|] == a && s[|a| + 1..] == b
  {
    var s := a + "-" + b;
    assert s[..|a|] == a;
    assert s[|a| + 1..] == b;
  }

  /** The rendering splits at its first dash into the class code and the rest. */
  lemma RenderAtFirstDash(n: PartNumber)
    ensures Render(n) == n.classCode + "-" + (n.item + "-" + n.variation)
  {
  }

  /** A part number whose fields hold no dash reads back as those fields. */
  lemma SplitRender(n: PartNumber)
    requires DashFree(n)
    ensures SplitPartNumber(Render(n)) == Some(n)
  {
    var s := Render(n);
    var rest := n.item + "-" + n.variation;
    RenderAtFirstDash(n);
    AroundDash(n.classCode, rest);
    AroundDash(n.item, n.variation);
    IndexOfPrefix(n.classCode, rest, '-');
    IndexOfPrefix(n.item, n.variation, '-');
    SplitAt(s, |n.classCode|, |n.item|);
  }

  /** SplitPartNumber once both dashes are found. */
  lemma SplitAt(s: string, i: nat, j: nat)
    requires IndexOf(s, '-') == Some(i)
    requires IndexOf(s[i + 1..], '-') == Some(j)
    requires '-' !in s[i + 1..][j + 1..]
    ensures SplitPartNumber(s) == Some(PartNumber(s[..i], s[i + 1..][..j], s[i + 1..][j + 1..]))
  {
  }

  /** Whatever SplitPartNumber accepts is the rendering of dash-free fields. */
  lemma RenderSplit(s: string)
    requires SplitPartNumber(s).Some?
    ensures DashFree(SplitPartNumber(s).value)
    ensures Render(SplitPartNumber(s).value) == s
  {
    var i := IndexOf(s, '-').value;
    var rest := s[i + 1..];
    var j := IndexOf(rest, '-').value;
    SplitAt(s, i, j);
    JoinAtDash(s, i);
    JoinAtDash(rest, j);
    RenderAtFirstDash(PartNumber(s[..i], rest[..j], rest[j + 1..]));
  }

  lemma JoinAtDash(s: string, i: nat)
    requires i < |s| && s[i] == '-'
    ensures s == s[..i] + "-" + s[i + 1..]
  {
  }

  /** Two parts whose number fields hold no dash have the same part number
      only when their (class, item, variation) keys agree. */
  lemma FullPartNumberInjective(p: Part, q: Part)
    requires DashFree(NumberOf(p)) && DashFree(NumberOf(q))
    requires FullPartNumber(p) == FullPartNumber(q)
    ensures p.classCode == q.classCode && p.item == q.item && p.variation == q.variation
  {
    SplitRender(NumberOf(p));
    SplitRender(NumberOf(q));
  }

  datatype NumberingError = NotANumber(text: string)

  /** Fills one number field of a part being saved. A field that is not blank
      is kept. A blank field becomes `first` when no part it is numbered
      against exists, and otherwise one more than the last existing number in
      text order, zero-padded to `width`. That last number must read as an
      integer, or the save fails. */
  function NextNumber(current: string, taken: seq<string>, width: nat, first: string): (r: Result<string, NumberingError>)
    ensures current != "" ==> r == Ok(current)
    ensures current == "" && |taken| == 0 ==> r == Ok(first)
    ensures r.Err? ==> current == "" && |taken| > 0 && r.error == NotANumber(LastInOrder(taken))
    ensures current == "" && |taken| > 0 ==> (r.Ok? <==> ParseInt(LastInOrder(taken)).Some?)
    ensures current == "" && |taken| > 0 && r.Ok? ==>
      && ParseInt(r.value) == Some(ParseInt(LastInOrder(taken)).value + 1)
      && |r.value| >= width
    ensures current == "" && |taken| > 0 && r.Ok? ==> Padded(ParseInt(LastInOrder(taken)).value + 1, width, r.value)
  {
    if current != "" then Ok(current)
    else if |taken| == 0 then Ok(first)
    else
      var last := LastInOrder(taken);
      match ParseInt(last)
      case None => Err(NotANumber(last))
      case Some(n) =>
        var s := Successor(n, width);
        Ok(s)
  }

  /** `"{0:0=Wd}".format(n + 1)`: it reads back as n + 1, and is the digits
      of n + 1 (after a minus sign when negative) zero-padded to exactly the
      width, or no longer than sign and digits need. */
  function Successor(n: int, width: nat): (s: string)
    ensures ParseInt(s) == Some(n + 1) && |s| >= width
    ensures n + 1 >= 0 ==> AllDigits(s) && |s| == if |Decimal(n + 1)| < width then width else |Decimal(n + 1)|
    ensures n + 1 < 0 ==>
      && s[0] == '-' && AllDigits(s[1..])
      && |s| == if 1 + |Decimal(-(n + 1))| < width then width else 1 + |Decimal(-(n + 1))|
    ensures Padded(n + 1, width, s)
  {
    ParseFormatInt(n + 1, width);
    FormatInt(n + 1, width)
  }

  /** The item numbers of the stored parts of one class. */
  function ItemsOfClass(stored: seq<Part>, code: string): (r: seq<string>)
    ensures forall x :: x in r <==> exists p :: p in stored && p.classCode == code && p.item == x
  {
    if |stored| == 0 then []
    else (if stored[0].classCode == code then [stored[0].item] else []) + ItemsOfClass(stored[1..], code)
  }

  /** The variation numbers of the stored parts of one class and item number. */
  function VariationsOf(stored: seq<Part>, code: string, item: string): (r: seq<string>)
    ensures forall x :: x in r <==> exists p :: p in stored && p.classCode == code && p.item == item && p.variation == x
  {
    if |stored| == 0 then []
    else
      (if stored[0].classCode == code && stored[0].item == item then [stored[0].variation] else [])
      + VariationsOf(stored[1..], code, item)
  }

  /** The numbering part of `Part.save`: the item number is filled against the
      stored parts of the same class (4 digits, "0001" first), then the
      variation against the stored parts of the same class and (new) item
      number (2 digits, "01" first). Every other field is kept. */
  function AssignNumbers(p: Part, stored: seq<Part>): (r: Result<Part, NumberingError>)
    ensures r.Ok? ==> r.value == p.(item := r.value.item, variation := r.value.variation)
    ensures r.Ok? ==> r.value.item != "" && r.value.variation != ""
    ensures p.item != "" ==> r.Ok? ==> r.value.item == p.item
    ensures p.variation != "" ==> r.Ok? ==> r.value.variation == p.variation
    ensures p.item != "" && p.variation != "" ==> r == Ok(p)
    ensures p.item == "" && ItemsOfClass(stored, p.classCode) == [] ==> r.Ok? ==> r.value.item == "0001"
    ensures r.Ok? ==> NextNumber(p.item, ItemsOfClass(stored, p.classCode), 4, "0001") == Ok(r.value.item)
    ensures r.Ok? ==> NextNumber(p.variation, VariationsOf(stored, p.classCode, r.value.item), 2, "01") == Ok(r.value.variation)
    ensures r.Err? <==>
      var item := NextNumber(p.item, ItemsOfClass(stored, p.classCode), 4, "0001");
      item.Err? || NextNumber(p.variation, VariationsOf(stored, p.classCode, item.value), 2, "01").Err?
  {
    match NextNumber(p.item, ItemsOfClass(stored, p.classCode), 4, "0001")
    case Err(e) => Err(e)
    case Ok(item) =>
      match NextNumber(p.variation, VariationsOf(stored, p.classCode, item), 2, "01")
      case Err(e) => Err(e)
      case Ok(variation) => Ok(p.(item := item, variation := variation))
  }

  /** When every existing number is a digit string of the field's width, the
      number given to a blank field is new: the save cannot collide with an
      existing number. */
  lemma {:induction false} NextNumberIsFresh(taken: seq<string>, width: nat, first: string)
    requires width > 0
    requires forall i :: 0 <= i < |taken| ==> |taken[i]| == width && AllDigits(taken[i])
    ensures NextNumber("", taken, width, first).Ok?
    ensures NextNumber("", taken, width, first).value !in taken
  {
    if |taken| > 0 {
      var last := LastInOrder(taken);
      assert last in taken;
      var m :| 0 <= m < |taken| && taken[m] == last;
      assert ParseInt(last) == Some(DigitsValue(last));
      var next := NextNumber("", taken, width, first).value;
      if next in taken {
        var k :| 0 <= k < |taken| && taken[k] == next;
        assert ParseInt(taken[k]) == Some(DigitsValue(taken[k]));
        LexLeDigits(taken[k], last);
        assert false;
      }
    }
  }

  /** A part saved with a blank item number, into a class whose stored item
      numbers are all four-digit strings, gets an item number no stored part
      of that class has, so its (class, item, variation) key is new. */
  lemma {:induction false} AssignedItemIsFresh(p: Part, stored: seq<Part>)
    requires p.item == "" && p.variation == ""
    requires forall q :: q in stored && q.classCode == p.classCode ==> |q.item| == 4 && AllDigits(q.item)
    ensures AssignNumbers(p, stored).Ok?
    ensures forall q :: q in stored && q.classCode == p.classCode ==> q.item != AssignNumbers(p, stored).value.item
    ensures AssignNumbers(p, stored).value.variation == "01"
  {
    var items := ItemsOfClass(stored, p.classCode);
    forall i | 0 <= i < |items|
      ensures |items[i]| == 4 && AllDigits(items[i])
    {
      assert items[i] in items;
    }
    NextNumberIsFresh(items, 4, "0001");
    var item := NextNumber("", items, 4, "0001").value;
    NoVariationsOfNewItem(stored, p.classCode, item);
  }

  lemma {:induction false} NoVariationsOfNewItem(stored: seq<Part>, code: string, item: string)
    requires item !in ItemsOfClass(stored, code)
    ensures VariationsOf(stored, code, item) == []
  {
    if |stored| > 0 {
      var head := if stored[0].classCode == code then [stored[0].item] else [];
      assert ItemsOfClass(stored, code) == head + ItemsOfClass(stored[1..], code);
      NoVariationsOfNewItem(stored[1..], code, item);
    }
  }
}

=== FILE: rollup.dfy ===
/** The costing of the indented-BOM view: every line of the indented bill of
    materials is priced for a build of a fixed number of top-level units,
    and the line prices add up to a unit cost and an extended cost. */
module Rollup {
  import opened Wrappers
  import opened Parts
  import opened Assembly
  import opened Expansion
  import opened Offers

  /** The number of top-level units the view prices a build for. */
  const BuildQuantity: int := 100

  /** The offers for each part, in the order the database returns them. */
  type Catalog = map<PartId, seq<Offer>>

  function OffersOf(catalog: Catalog, p: PartId): seq<Offer>
  {
    if p in catalog then catalog[p] else []
  }

  /** A line with the figures the view adds to it. */
  datatype PricedLine = PricedLine(line: Line, extendedQuantity: int, choice: Choice, extendedCost: Option<int>)

  /** The whole costing: priced lines, the cost of one top-level unit, the
      cost of the build, and whether every line found an offer. */
  datatype Costing = Costing(lines: seq<PricedLine>, unitCost: int, extendedCost: int, complete: bool)

  /** One line: the build needs `BuildQuantity` times the line's quantity;
      the best offer is chosen for that many; the extended cost is that many
      at the chosen price, or nothing when the part has no offer. */
  function PriceLine(line: Line, offers: seq<Offer>): (r: PricedLine)
    ensures r.line == line && r.extendedQuantity == BuildQuantity * line.quantity
    ensures IsBestOffer(offers, r.extendedQuantity, r.choice)
    ensures r.choice.pick.None? <==> |offers| == 0
    ensures r.extendedCost.None? <==> |offers| == 0
    ensures r.extendedCost.Some? ==> r.extendedCost.value == r.extendedQuantity * offers[r.choice.pick.value.index].unitCost
  {
    var needed := BuildQuantity * line.quantity;
    var choice := BestOffer(offers, needed);
    PricedLine(line, needed, choice, if choice.pick.Some? then Some(needed * choice.pick.value.price) else None)
  }

  /** What one line adds to the unit cost: its price times its quantity, or
      nothing for an unpriced line. */
  function UnitShare(l: PricedLine): int
  {
    if l.choice.pick.Some? then l.choice.pick.value.price * l.line.quantity else 0
  }

  /** The cost of one top-level unit: nothing when no line is priced, and
      never negative when no line's share is. */
  function UnitCost(lines: seq<PricedLine>): (r: int)
    ensures (forall i :: 0 <= i < |lines| ==> lines[i].choice.pick.None?) ==> r == 0
    ensures (forall i :: 0 <= i < |lines| ==> UnitShare(lines[i]) >= 0) ==> r >= 0
  {
    if |lines| == 0 then 0 else UnitCost(lines[..|lines| - 1]) + UnitShare(lines[|lines| - 1])
  }

  /** The sum of the extended costs shown on the lines, unpriced ones
      counting nothing. */
  function ExtendedSum(lines: seq<PricedLine>): int
  {
    if |lines| == 0 then 0
    else
      var last := lines[|lines| - 1];
      ExtendedSum(lines[..|lines| - 1]) + (if last.extendedCost.Some? then last.extendedCost.value else 0)
  }

  predicate PricedFrom(lines: seq<Line>, catalog: Catalog, priced: seq<PricedLine>)
  {
    |priced| == |lines| && forall i :: 0 <= i < |lines| ==> priced[i] == PriceLine(lines[i], OffersOf(catalog, lines[i].part))
  }

  /** The build's cost as the view reports it equals the sum of the extended
      costs on its lines. */
  lemma {:induction false} ExtendedCostIsSumOfLines(lines: seq<Line>, catalog: Catalog, priced: seq<PricedLine>)
    requires PricedFrom(lines, catalog, priced)
    ensures ExtendedSum(priced) == UnitCost(priced) * BuildQuantity
  {
    if |priced| > 0 {
      var n := |priced| - 1;
      assert PricedFrom(lines[..n], catalog, priced[..n]);
      ExtendedCostIsSumOfLines(lines[..n], catalog, priced[..n]);
      var last := priced[n];
      assert last == PriceLine(lines[n], OffersOf(catalog, lines[n].part));
      if last.choice.pick.Some? {
        calc {
          last.extendedCost.value;
          BuildQuantity * lines[n].quantity * last.choice.pick.value.price;
          { MultiplyCommutes(BuildQuantity, lines[n].quantity, last.choice.pick.value.price); }
          UnitShare(last) * BuildQuantity;
        }
      }
    }
  }

  lemma MultiplyCommutes(a: int, b: int, c: int)
    ensures a * b * c == c * b * a
  {
  }

  lemma PricedOneMore(lines: seq<Line>, catalog: Catalog, priced: seq<PricedLine>, i: nat)
    requires i < |lines| && PricedFrom(lines[..i], catalog, priced)
    ensures var item := PriceLine(lines[i], OffersOf(catalog, lines[i].part));
      && PricedFrom(lines[..i + 1], catalog, priced + [item])
      && UnitCost(priced + [item]) == UnitCost(priced) + UnitShare(item)
  {
    var item := PriceLine(lines[i], OffersOf(catalog, lines[i].part));
    assert (priced + [item])[..|priced|] == priced;
    assert forall k :: 0 <= k < i ==> lines[..i + 1][k] == lines[..i][k];
  }

  predicate AllOffered(lines: seq<Line>, catalog: Catalog, n: nat)
    requires n <= |lines|
  {
    forall k :: 0 <= k < n ==> |OffersOf(catalog, lines[k].part)| > 0
  }

  lemma AllOfferedStep(lines: seq<Line>, catalog: Catalog, n: nat)
    requires 0 < n <= |lines|
    ensures AllOffered(lines, catalog, n) <==> AllOffered(lines, catalog, n - 1) && |OffersOf(catalog, lines[n - 1].part)| > 0
  {
  }

  /** Every line found an offer exactly when every line shows an extended cost. */
  lemma CompleteMeansAllPriced(lines: seq<Line>, catalog: Catalog, priced: seq<PricedLine>)
    requires PricedFrom(lines, catalog, priced)
    ensures AllOffered(lines, catalog, |lines|) <==> forall i :: 0 <= i < |priced| ==> priced[i].extendedCost.Some?
  {
    if !AllOffered(lines, catalog, |lines|) {
      var k :| 0 <= k < |lines| && |OffersOf(catalog, lines[k].part)| == 0;
      assert priced[k].extendedCost.None?;
    }
  }

  /** The loop of the indented-BOM view over the expanded lines. */
  method CostIndented(lines: seq<Line>, catalog: Catalog) returns (c: Costing)
    ensures PricedFrom(lines, catalog, c.lines)
    ensures c.unitCost == UnitCost(c.lines)
    ensures c.extendedCost == c.unitCost * BuildQuantity
    ensures c.extendedCost == ExtendedSum(c.lines)
    ensures c.complete <==> forall i :: 0 <= i < |lines| ==> |OffersOf(catalog, lines[i].part)| > 0
    ensures c.complete <==> forall i :: 0 <= i < |c.lines| ==> c.lines[i].extendedCost.Some?
  {
    var priced: seq<PricedLine> := [];
    var unitCost := 0;
    var complete := true;
    var i := 0;
    while i < |lines|
      invariant i <= |lines|
      invariant PricedFrom(lines[..i], catalog, priced)
      invariant unitCost == UnitCost(priced)
      invariant complete <==> AllOffered(lines, catalog, i)
    {
      var item := PriceLine(lines[i], OffersOf(catalog, lines[i].part));
      if item.choice.pick.Some? {
        unitCost := unitCost + item.choice.pick.value.price * lines[i].quantity;
      }
      if item.choice.pick.None? {
        complete := false;
      }
      PricedOneMore(lines, catalog, priced, i);
      AllOfferedStep(lines, catalog, i + 1);
      priced := priced + [item];
      i := i + 1;
    }
    assert lines[..i] == lines;
    ExtendedCostIsSumOfLines(lines, catalog, priced);
    CompleteMeansAllPriced(lines, catalog, priced);
    c := Costing(priced, unitCost, unitCost * BuildQuantity, complete);
  }

  /** The unit cost of two runs of lines is the sum of their unit costs. */
  lemma {:induction false} UnitCostAdditive(a: seq<PricedLine>, b: seq<PricedLine>)
    ensures UnitCost(a + b) == UnitCost(a) + UnitCost(b)
  {
    if |b| == 0 {
      assert a + b == a;
    } else {
      var front := b[..|b| - 1];
      UnitCostAdditive(a, front);
      assert (a + b)[..|a + b| - 1] == a + front;
      assert (a + b)[|a + b| - 1] == b[|b| - 1];
    }
  }

  /** A line without a price adds nothing to the unit cost, wherever it
      stands. */
  lemma UnpricedLineAddsNothing(a: seq<PricedLine>, l: PricedLine, b: seq<PricedLine>)
    requires l.choice.pick.None?
    ensures UnitCost(a + [l] + b) == UnitCost(a + b)
  {
    UnitCostAdditive(a + [l], b);
    UnitCostAdditive(a, [l]);
    UnitCostAdditive(a, b);
  }

  /** A worked case: a top part with one priced and one unpriced subpart.
      The unpriced line adds nothing and marks the costing incomplete. */
  lemma UnpricedLineExample()
    ensures var catalog: Catalog := map[2 := [Offer(10, 15000)]];
      var lines := [Line(1, 1, 0, None), Line(2, 3, 1, Some(Subpart(1, 2, 3))), Line(3, 2, 1, Some(Subpart(1, 3, 2)))];
      var priced := seq(3, i requires 0 <= i < 3 => PriceLine(lines[i], OffersOf(catalog, lines[i].part)));
      && UnitCost(priced) == 45000
      && priced[0].extendedCost.None? && priced[1].extendedCost == Some(300 * 15000)
      && !(forall i :: 0 <= i < 3 ==> |OffersOf(catalog, lines[i].part)| > 0)
  {
    var catalog: Catalog := map[2 := [Offer(10, 15000)]];
    var lines := [Line(1, 1, 0, None), Line(2, 3, 1, Some(Subpart(1, 2, 3))), Line(3, 2, 1, Some(Subpart(1, 3, 2)))];
    var priced := seq(3, i requires 0 <= i < 3 => PriceLine(lines[i], OffersOf(catalog, lines[i].part)));
    assert OffersOf(catalog, 1) == [] && OffersOf(catalog, 3) == [];
    assert priced[1].choice == Choice(Some(Pick(0, 15000)), 300);
    assert priced[..1][..0] == [] && priced[..2][..1] == priced[..1] && priced[..2] == priced[..|priced| - 1];
    assert UnitCost(priced[..1]) == 0;
    assert UnitCost(priced[..2]) == 45000;
  }
}

=== FILE: upload.dfy ===
/** `upload_part_indented`: replacing an assembly's subpart links with the
    rows of an uploaded table. The links are deleted first; then every row
    naming both a part number and a quantity adds one link, in row order,
    until a row goes wrong. Nothing is undone when that happens. */
module Upload {
  import opened Wrappers
  import opened Numbers
  import opened Parts
  import opened Assembly
  import opened Expansion

  const PartNumberColumn: string := "part_number"
  const QuantityColumn: string := "quantity"

  /** A row's cells keyed by the header above them, a later column winning
      over an earlier one with the same header. A row with more cells than
      there are headers has no reading: the view fails on its first extra
      cell. */
  function RowFields(headers: seq<string>, row: seq<string>): (r: Option<map<string, string>>)
    ensures r.Some? <==> |row| <= |headers|
  {
    if |row| > |headers| then None
    else if |row| == 0 then Some(map[])
    else
      var n := |row| - 1;
      Some(RowFields(headers, row[..n]).value[headers[n] := row[n]])
  }

  /** The keys of a row's reading are the headers of its cells. */
  lemma {:induction false} RowFieldsKeys(headers: seq<string>, row: seq<string>)
    requires |row| <= |headers|
    ensures forall k :: k in RowFields(headers, row).value <==> k in headers[..|row|]
  {
    if |row| > 0 {
      var n := |row| - 1;
      RowFieldsKeys(headers, row[..n]);
      assert headers[..|row|] == headers[..n] + [headers[n]];
    }
  }

  /** A cell is read under its header unless a later cell has the same
      header. */
  lemma {:induction false} RowFieldsValues(headers: seq<string>, row: seq<string>, i: nat)
    requires |row| <= |headers| && i < |row|
    requires forall j :: i < j < |row| ==> headers[j] != headers[i]
    ensures headers[i] in RowFields(headers, row).value
    ensures RowFields(headers, row).value[headers[i]] == row[i]
  {
    var n := |row| - 1;
    if i < n {
      RowFieldsValues(headers, row[..n], i);
    }
  }

  /** Why an import stopped, with the position of the row (counting from
      the first row after the header). A part number that names no part is
      answered with a "failed" status; the same reason also stands for a part
      number the parser raises on, which the view does not catch. The other
      two are uncaught exceptions as well: a cell beyond the last header, and
      a quantity the integer column cannot take. */
  datatype ImportStop =
    | ExtraCell(row: nat)
    | NoSuchSubpart(row: nat, partNumber: string)
    | BadQuantity(row: nat, quantity: string)
  {
    function Row(): nat
    {
      match this
      case ExtraCell(k) => k
      case NoSuchSubpart(k, _) => k
      case BadQuantity(k, _) => k
    }
  }

  /** What one row does. */
  datatype RowEffect = Skip | AddLink(link: Subpart) | Stop(reason: ImportStop)

  /** One row of the import. `resolve` stands for turning a full part
      number into its class, item and variation and taking the first part
      that has them, or None when there is none. */
  function RowStep(assembly: PartId, headers: seq<string>, row: seq<string>, resolve: string -> Option<PartId>, k: nat): (r: RowEffect)
    ensures r.AddLink? ==> r.link.assembly == assembly
    ensures r.Stop? ==> r.reason.Row() == k
    ensures r.Skip? <==> (RowFields(headers, row).Some? && !(PartNumberColumn in RowFields(headers, row).value && QuantityColumn in RowFields(headers, row).value))
    ensures RowFields(headers, row).Some? && !r.Skip? ==>
      var wanted := RequestedLink(assembly, RowFields(headers, row).value, resolve);
      (r.AddLink? <==> wanted.Some?) && (r.AddLink? ==> wanted == Some(r.link))
    ensures RowFields(headers, row).Some? && r.Stop? ==>
      var fields := RowFields(headers, row).value;
      && (r.reason.NoSuchSubpart? <==> resolve(fields[PartNumberColumn]).None?)
      && (r.reason.BadQuantity? <==> resolve(fields[PartNumberColumn]).Some? && ParseInt(fields[QuantityColumn]).None?)
  {
    match RowFields(headers, row)
    case None => Stop(ExtraCell(k))
    case Some(fields) =>
      if PartNumberColumn in fields && QuantityColumn in fields then
        match resolve(fields[PartNumberColumn])
        case None => Stop(NoSuchSubpart(k, fields[PartNumberColumn]))
        case Some(subpart) =>
          match ParseInt(fields[QuantityColumn])
          case None => Stop(BadQuantity(k, fields[QuantityColumn]))
          case Some(count) => AddLink(Subpart(assembly, subpart, count))
      else Skip
  }

  /** The links written for rows k.. and the reason the import stopped, if
      it did. */
  function LinkRows(assembly: PartId, headers: seq<string>, rows: seq<seq<string>>, resolve: string -> Option<PartId>, k: nat)
    : (r: (Graph, Option<ImportStop>))
    ensures forall e :: e in r.0 ==> e.assembly == assembly
    ensures r.1.Some? ==> k <= r.1.value.Row() < k + |rows|
    ensures |r.0| <= |rows|
  {
    if |rows| == 0 then ([], None)
    else
      match RowStep(assembly, headers, rows[0], resolve, k)
      case Stop(reason) => ([], Some(reason))
      case Skip => LinkRows(assembly, headers, rows[1..], resolve, k + 1)
      case AddLink(link) =>
        var rest := LinkRows(assembly, headers, rows[1..], resolve, k + 1);
        ([link] + rest.0, rest.1)
  }

  /** The Subpart table after the import, and why it stopped, if it did. */
  datatype Outcome = Outcome(table: Graph, stop: Option<ImportStop>)

  /** Delete the assembly's links, then add a link per row. */
  function ImportBom(g: Graph, assembly: PartId, headers: seq<string>, rows: seq<seq<string>>, resolve: string -> Option<PartId>)
    : (r: Outcome)
    ensures forall e :: e in r.table ==> e in g || e.assembly == assembly
    ensures forall e :: e in g && e.assembly != assembly ==> e in r.table
  {
    var written := LinkRows(assembly, headers, rows, resolve, 0);
    Outcome(Filter(g, AssemblyIsNot(assembly)) + written.0, written.1)
  }

  // ----- Properties of the import -----

  lemma {:induction false} FilterAll(g: Graph, q: Query)
    requires forall e :: e in g ==> Selects(q, e)
    ensures Filter(g, q) == g
  {
    if |g| > 0 {
      assert g[0] in g;
      assert forall e :: e in g[1..] ==> e in g;
      FilterAll(g[1..], q);
    }
  }

  lemma {:induction false} FilterOfKept(g: Graph, assembly: PartId, b: PartId)
    ensures Filter(Filter(g, AssemblyIsNot(assembly)), AssemblyIs(b)) == if b == assembly then [] else Filter(g, AssemblyIs(b))
  {
    if |g| > 0 {
      FilterOfKept(g[1..], assembly, b);
      var rest := Filter(g[1..], AssemblyIsNot(assembly));
      if g[0].assembly != assembly {
        assert Filter(g, AssemblyIsNot(assembly)) == [g[0]] + rest;
        FilterConcat([g[0]], rest, AssemblyIs(b));
        assert Filter([g[0]], AssemblyIs(b)) == (if g[0].assembly == b then [g[0]] else []) + Filter([g[0]][1..], AssemblyIs(b));
        assert [g[0]][1..] == [];
      } else {
        assert Filter(g, AssemblyIsNot(assembly)) == rest;
        assert b != assembly ==> Filter(g, AssemblyIs(b)) == Filter(g[1..], AssemblyIs(b));
      }
    }
  }

  /** After the import the assembly's links are exactly the written ones, in
      row order: none of its earlier links survive. */
  lemma ImportReplacesLinks(g: Graph, assembly: PartId, headers: seq<string>, rows: seq<seq<string>>, resolve: string -> Option<PartId>)
    ensures var r := ImportBom(g, assembly, headers, rows, resolve);
      ChildEdges(r.table, assembly) == LinkRows(assembly, headers, rows, resolve, 0).0
  {
    var kept := Filter(g, AssemblyIsNot(assembly));
    var written := LinkRows(assembly, headers, rows, resolve, 0).0;
    FilterConcat(kept, written, AssemblyIs(assembly));
    FilterOfKept(g, assembly, assembly);
    FilterAll(written, AssemblyIs(assembly));
  }

  /** Every other assembly keeps its links, in the same order. */
  lemma ImportKeepsOtherAssemblies(g: Graph, assembly: PartId, headers: seq<string>, rows: seq<seq<string>>, resolve: string -> Option<PartId>, b: PartId)
    requires b != assembly
    ensures ChildEdges(ImportBom(g, assembly, headers, rows, resolve).table, b) == ChildEdges(g, b)
  {
    var kept := Filter(g, AssemblyIsNot(assembly));
    var written := LinkRows(assembly, headers, rows, resolve, 0).0;
    FilterConcat(kept, written, AssemblyIs(b));
    FilterOfKept(g, assembly, b);
    FilterNone(written, AssemblyIs(b));
  }

  /** An upload without rows just deletes the assembly's links. */
  lemma EmptyUploadClearsAssembly(g: Graph, assembly: PartId, headers: seq<string>, resolve: string -> Option<PartId>)
    ensures ImportBom(g, assembly, headers, [], resolve) == Outcome(Filter(g, AssemblyIsNot(assembly)), None)
    ensures ChildEdges(ImportBom(g, assembly, headers, [], resolve).table, assembly) == []
  {
    ImportReplacesLinks(g, assembly, headers, [], resolve);
  }

  /** The rows that ask for a link, as their cell maps. */
  function Requests(headers: seq<string>, rows: seq<seq<string>>): (r: seq<map<string, string>>)
    requires forall i :: 0 <= i < |rows| ==> |rows[i]| <= |headers|
    ensures forall i :: 0 <= i < |r| ==> PartNumberColumn in r[i] && QuantityColumn in r[i]
    ensures |r| <= |rows|
  {
    if |rows| == 0 then []
    else
      var fields := RowFields(headers, rows[0]).value;
      (if PartNumberColumn in fields && QuantityColumn in fields then [fields] else [])
      + Requests(headers, rows[1..])
  }

  /** The link a requesting row asks for, when its part resolves and its
      quantity parses. */
  function RequestedLink(assembly: PartId, fields: map<string, string>, resolve: string -> Option<PartId>): Option<Subpart>
  {
    if PartNumberColumn !in fields || QuantityColumn !in fields then None
    else
      var subpart := resolve(fields[PartNumberColumn]);
      var count := ParseInt(fields[QuantityColumn]);
      if subpart.Some? && count.Some? then Some(Subpart(assembly, subpart.value, count.value)) else None
  }

  /** Every row of an import that does not stop fits under the headers. */
  lemma {:induction false} CompleteImportRowsFit(assembly: PartId, headers: seq<string>, rows: seq<seq<string>>, resolve: string -> Option<PartId>, k: nat)
    requires LinkRows(assembly, headers, rows, resolve, k).1.None?
    ensures forall i :: 0 <= i < |rows| ==> |rows[i]| <= |headers|
  {
    if |rows| > 0 {
      assert !RowStep(assembly, headers, rows[0], resolve, k).Stop?;
      CompleteImportRowsFit(assembly, headers, rows[1..], resolve, k + 1);
      assert forall i :: 1 <= i < |rows| ==> rows[i] == rows[1..][i - 1];
    }
  }

  /** The links a sequence of requests asks for, in order, or None if one
      of them names no part or no number. */
  function RequestedLinks(assembly: PartId, wanted: seq<map<string, string>>, resolve: string -> Option<PartId>): (r: Option<Graph>)
    ensures r.Some? ==> |r.value| == |wanted|
  {
    if |wanted| == 0 then Some([])
    else
      match RequestedLink(assembly, wanted[0], resolve)
      case None => None
      case Some(link) =>
        match RequestedLinks(assembly, wanted[1..], resolve)
        case None => None
        case Some(rest) => Some([link] + rest)
  }

  /** An import that does not stop wrote one link per requesting row, in
      row order, each to the resolved part with the parsed quantity. */
  lemma {:induction false} CompleteImportFollowsRows(assembly: PartId, headers: seq<string>, rows: seq<seq<string>>, resolve: string -> Option<PartId>, k: nat)
    requires LinkRows(assembly, headers, rows, resolve, k).1.None?
    requires forall i :: 0 <= i < |rows| ==> |rows[i]| <= |headers|
    ensures RequestedLinks(assembly, Requests(headers, rows), resolve) == Some(LinkRows(assembly, headers, rows, resolve, k).0)
  {
    if |rows| > 0 {
      var step := RowStep(assembly, headers, rows[0], resolve, k);
      assert !step.Stop?;
      assert forall i :: 1 <= i < |rows| ==> rows[i] == rows[1..][i - 1];
      CompleteImportFollowsRows(assembly, headers, rows[1..], resolve, k + 1);
      var fields := RowFields(headers, rows[0]).value;
      var wanted := Requests(headers, rows);
      var rest := LinkRows(assembly, headers, rows[1..], resolve, k + 1).0;
      if step.AddLink? {
        assert LinkRows(assembly, headers, rows, resolve, k).0 == [step.link] + rest;
        assert RequestedLink(assembly, fields, resolve) == Some(step.link);
        assert wanted == [fields] + Requests(headers, rows[1..]);
        assert wanted[1..] == Requests(headers, rows[1..]);
        assert RequestedLinks(assembly, wanted, resolve) == Some([step.link] + rest);
      } else {
        assert LinkRows(assembly, headers, rows, resolve, k).0 == rest;
        assert wanted == Requests(headers, rows[1..]);
      }
    }
  }

  /** The links written for a run of row effects and the stop that ended
      it, if any: what LinkRows computes once each row's effect is known. */
  function Apply(effects: seq<RowEffect>): (Graph, Option<ImportStop>)
  {
    if |effects| == 0 then ([], None)
    else
      match effects[0]
      case Stop(reason) => ([], Some(reason))
      case Skip => Apply(effects[1..])
      case AddLink(link) =>
        var rest := Apply(effects[1..]);
        ([link] + rest.0, rest.1)
  }

  /** The position of the first stopping effect, or the length when none
      stops. */
  function FirstStop(effects: seq<RowEffect>): (n: nat)
    ensures n <= |effects|
    ensures n < |effects| ==> effects[n].Stop?
    ensures forall i :: 0 <= i < n ==> !effects[i].Stop?
  {
    if |effects| == 0 || effects[0].Stop? then 0 else 1 + FirstStop(effects[1..])
  }

  /** A run of effects stops exactly at its first stopping effect, after
      writing the links of the effects before it. */
  lemma {:induction false} ApplyStopsAtFirst(effects: seq<RowEffect>)
    ensures var n := FirstStop(effects);
      && (Apply(effects).1.Some? <==> n < |effects|)
      && (n < |effects| ==> effects[n] == Stop(Apply(effects).1.value))
      && Apply(effects[..n]) == (Apply(effects).0, None)
  {
    if |effects| > 0 && !effects[0].Stop? {
      var tail := effects[1..];
      ApplyStopsAtFirst(tail);
      var n := FirstStop(effects);
      assert effects[..n][0] == effects[0] && effects[..n][1..] == tail[..n - 1];
      assert n < |effects| ==> effects[n] == tail[n - 1];
    } else if |effects| > 0 {
      assert effects[..0] == [];
    }
  }

  /** Each row's effect, in row order. */
  function Effects(assembly: PartId, headers: seq<string>, rows: seq<seq<string>>, resolve: string -> Option<PartId>, k: nat): (r: seq<RowEffect>)
    ensures |r| == |rows|
  {
    if |rows| == 0 then []
    else [RowStep(assembly, headers, rows[0], resolve, k)] + Effects(assembly, headers, rows[1..], resolve, k + 1)
  }

  lemma {:induction false} EffectsAt(assembly: PartId, headers: seq<string>, rows: seq<seq<string>>, resolve: string -> Option<PartId>, k: nat, i: nat)
    requires i < |rows|
    ensures Effects(assembly, headers, rows, resolve, k)[i] == RowStep(assembly, headers, rows[i], resolve, k + i)
  {
    if i > 0 {
      EffectsAt(assembly, headers, rows[1..], resolve, k + 1, i - 1);
      assert rows[1..][i - 1] == rows[i];
    }
  }

  lemma {:induction false} EffectsPrefix(assembly: PartId, headers: seq<string>, rows: seq<seq<string>>, resolve: string -> Option<PartId>, k: nat, n: nat)
    requires n <= |rows|
    ensures Effects(assembly, headers, rows[..n], resolve, k) == Effects(assembly, headers, rows, resolve, k)[..n]
  {
    if n > 0 {
      EffectsPrefix(assembly, headers, rows[1..], resolve, k + 1, n - 1);
      assert rows[..n][0] == rows[0] && rows[..n][1..] == rows[1..][..n - 1];
    }
  }

  /** LinkRows is Apply over the rows' effects. */
  lemma {:induction false} LinkRowsApply(assembly: PartId, headers: seq<string>, rows: seq<seq<string>>, resolve: string -> Option<PartId>, k: nat)
    ensures LinkRows(assembly, headers, rows, resolve, k) == Apply(Effects(assembly, headers, rows, resolve, k))
  {
    if |rows| > 0 {
      LinkRowsApply(assembly, headers, rows[1..], resolve, k + 1);
      var effects := Effects(assembly, headers, rows, resolve, k);
      assert effects[1..] == Effects(assembly, headers, rows[1..], resolve, k + 1);
    }
  }

  /** Conversely, when every row fits under the headers and every requesting
      row resolves and parses, the import does not stop. */
  lemma {:induction false} GoodRowsCompleteImport(assembly: PartId, headers: seq<string>, rows: seq<seq<string>>, resolve: string -> Option<PartId>, k: nat)
    requires forall i :: 0 <= i < |rows| ==> |rows[i]| <= |headers|
    requires RequestedLinks(assembly, Requests(headers, rows), resolve).Some?
    ensures LinkRows(assembly, headers, rows, resolve, k).1.None?
  {
    if |rows| > 0 {
      var fields := RowFields(headers, rows[0]).value;
      var wanted := Requests(headers, rows);
      var tail := Requests(headers, rows[1..]);
      assert forall i :: 0 <= i < |rows| - 1 ==> rows[1..][i] == rows[i + 1];
      if PartNumberColumn in fields && QuantityColumn in fields {
        assert wanted == [fields] + tail;
        assert wanted[1..] == tail;
        assert RequestedLink(assembly, fields, resolve).Some?;
      } else {
        assert wanted == tail;
      }
      GoodRowsCompleteImport(assembly, headers, rows[1..], resolve, k + 1);
    }
  }

  /** An import that stops does so at the first row that goes wrong: the
      links of the rows before it are written (and stay written), and the
      stop is what that row does. */
  lemma ImportStopsAtFirstBadRow(assembly: PartId, headers: seq<string>, rows: seq<seq<string>>, resolve: string -> Option<PartId>, k: nat)
    requires LinkRows(assembly, headers, rows, resolve, k).1.Some?
    ensures var r := LinkRows(assembly, headers, rows, resolve, k);
      var bad := r.1.value.Row() - k;
      && 0 <= bad < |rows|
      && RowStep(assembly, headers, rows[bad], resolve, r.1.value.Row()) == Stop(r.1.value)
      && LinkRows(assembly, headers, rows[..bad], resolve, k) == (r.0, None)
  {
    StopIsFirstStop(assembly, headers, rows, resolve, k);
    WrittenBeforeFirstStop(assembly, headers, rows, resolve, k);
  }

  /** The stop of an import is the effect of its first stopping row. */
  lemma StopIsFirstStop(assembly: PartId, headers: seq<string>, rows: seq<seq<string>>, resolve: string -> Option<PartId>, k: nat)
    requires LinkRows(assembly, headers, rows, resolve, k).1.Some?
    ensures var stop := LinkRows(assembly, headers, rows, resolve, k).1.value;
      var n := FirstStop(Effects(assembly, headers, rows, resolve, k));
      && n == stop.Row() - k
      && 0 <= stop.Row() - k < |rows|
      && RowStep(assembly, headers, rows[stop.Row() - k], resolve, stop.Row()) == Stop(stop)
  {
    var effects := Effects(assembly, headers, rows, resolve, k);
    var n := FirstStop(effects);
    var stop := LinkRows(assembly, headers, rows, resolve, k).1.value;
    assert n < |effects| && effects[n] == Stop(stop) by {
      LinkRowsApply(assembly, headers, rows, resolve, k);
      ApplyStopsAtFirst(effects);
    }
    assert RowStep(assembly, headers, rows[n], resolve, k + n) == Stop(stop) by {
      EffectsAt(assembly, headers, rows, resolve, k, n);
    }
    assert stop.Row() - k == n;
  }

  /** The links an import writes are those of the rows before its first
      stopping row. */
  lemma WrittenBeforeFirstStop(assembly: PartId, headers: seq<string>, rows: seq<seq<string>>, resolve: string -> Option<PartId>, k: nat)
    ensures var n := FirstStop(Effects(assembly, headers, rows, resolve, k));
      n <= |rows| && LinkRows(assembly, headers, rows[..n], resolve, k) == (LinkRows(assembly, headers, rows, resolve, k).0, None)
  {
    var effects := Effects(assembly, headers, rows, resolve, k);
    var n := FirstStop(effects);
    assert Apply(effects[..n]) == (LinkRows(assembly, headers, rows, resolve, k).0, None) by {
      LinkRowsApply(assembly, headers, rows, resolve, k);
      ApplyStopsAtFirst(effects);
    }
    EffectsPrefix(assembly, headers, rows, resolve, k, n);
    LinkRowsApply(assembly, headers, rows[..n], resolve, k);
  }

  /** Two links of one assembly to the same part, written after any kept
      links, make `get` on that pair raise. */
  lemma DuplicateAfterPrefix(kept: Graph, links: Graph, assembly: PartId, i: nat, j: nat)
    requires i < j < |links| && links[i].assembly == assembly && links[j].assembly == assembly
    requires links[i].subpart == links[j].subpart
    ensures !UniquePairs(kept + links)
    ensures Get(kept + links, assembly, links[i].subpart) == Err(MultipleObjectsReturned)
  {
    var t := kept + links;
    assert t[|kept| + i] == links[i] && t[|kept| + j] == links[j];
    DuplicatePairFails(t, |kept| + i, |kept| + j);
  }

  /** The same, for indenting the assembly. */
  lemma DuplicateAfterPrefixIndented(kept: Graph, links: Graph, rank: map<PartId, nat>, assembly: PartId, i: nat, j: nat)
    requires i < j < |links| && links[i].assembly == assembly && links[j].assembly == assembly
    requires links[i].subpart == links[j].subpart
    requires Ranked(kept + links, rank)
    ensures Indented(kept + links, rank, assembly) == Err(MultipleObjectsReturned)
  {
    var t := kept + links;
    assert t[|kept| + i] == links[i] && t[|kept| + j] == links[j];
    IndentedFailsOnDuplicateLink(t, rank, assembly, |kept| + i, |kept| + j);
  }

  /** Two rows that write links to the same part leave the assembly with two
      links to it, whether or not the import then stops, so a later `get` on
      that pair raises `MultipleObjectsReturned`. */
  lemma RepeatedPartBreaksUniqueness(g: Graph, assembly: PartId, headers: seq<string>, rows: seq<seq<string>>, resolve: string -> Option<PartId>, i: nat, j: nat)
    requires var links := LinkRows(assembly, headers, rows, resolve, 0).0;
      i < j < |links| && links[i].subpart == links[j].subpart
    ensures !UniquePairs(ImportBom(g, assembly, headers, rows, resolve).table)
    ensures var part := LinkRows(assembly, headers, rows, resolve, 0).0[i].subpart;
      Get(ImportBom(g, assembly, headers, rows, resolve).table, assembly, part) == Err(MultipleObjectsReturned)
  {
    var links := LinkRows(assembly, headers, rows, resolve, 0).0;
    assert links[i] in links && links[j] in links;
    DuplicateAfterPrefix(Filter(g, AssemblyIsNot(assembly)), links, assembly, i, j);
  }

  /** Indenting the assembly after such an import raises
      `MultipleObjectsReturned`. */
  lemma RepeatedPartBreaksIndented(g: Graph, rank: map<PartId, nat>, assembly: PartId, headers: seq<string>, rows: seq<seq<string>>, resolve: string -> Option<PartId>, i: nat, j: nat)
    requires var links := LinkRows(assembly, headers, rows, resolve, 0).0;
      i < j < |links| && links[i].subpart == links[j].subpart
    requires Ranked(ImportBom(g, assembly, headers, rows, resolve).table, rank)
    ensures Indented(ImportBom(g, assembly, headers, rows, resolve).table, rank, assembly) == Err(MultipleObjectsReturned)
  {
    var links := LinkRows(assembly, headers, rows, resolve, 0).0;
    assert links[i] in links && links[j] in links;
    DuplicateAfterPrefixIndented(Filter(g, AssemblyIsNot(assembly)), links, rank, assembly, i, j);
  }

  /** A worked case: a header, a good row, a row without a quantity cell
      (skipped) and a row naming an unknown part. The good row's link is
      written and stays; the import stops at the third row. */
  lemma PartialImportKeepsEarlierRows(g: Graph)
    ensures var resolve := (pn: string) => if pn == "A-0001-01" then Some(7) else None;
      var rows := [["A-0001-01", "2"], ["A-0001-01"], ["B-0001-01", "1"]];
      ImportBom(g, 3, ["part_number", "quantity"], rows, resolve)
        == Outcome(Filter(g, AssemblyIsNot(3)) + [Subpart(3, 7, 2)], Some(NoSuchSubpart(2, "B-0001-01")))
  {
    var resolve := (pn: string) => if pn == "A-0001-01" then Some(7) else None;
    var headers := ["part_number", "quantity"];
    var rows := [["A-0001-01", "2"], ["A-0001-01"], ["B-0001-01", "1"]];
    assert RowStep(3, headers, rows[0], resolve, 0) == AddLink(Subpart(3, 7, 2)) by {
      assert rows[0][..1] == ["A-0001-01"] && rows[0][..1][..0] == [];
      assert RowFields(headers, rows[0]).value == map["part_number" := "A-0001-01", "quantity" := "2"];
      ParseDigitsExample();
    }
    assert RowStep(3, headers, rows[1], resolve, 1) == Skip by {
      assert rows[1][..0] == [];
      assert RowFields(headers, rows[1]).value == map["part_number" := "A-0001-01"];
    }
    assert RowStep(3, headers, rows[2], resolve, 2) == Stop(NoSuchSubpart(2, "B-0001-01")) by {
      assert rows[2][..1] == ["B-0001-01"] && rows[2][..1][..0] == [];
      assert RowFields(headers, rows[2]).value == map["part_number" := "B-0001-01", "quantity" := "1"];
    }
    assert rows[1..][1..] == rows[2..];
  }

  lemma ParseDigitsExample()
    ensures ParseInt("2") == Some(2)
  {
    ParseFormatInt(2, 0);
    assert FormatInt(2, 0) == "2";
  }
}

=== FILE: wrappers.dfy ===
/** Option and Result: the model's stand-ins for Python's `None` and for the
    exceptions and error replies of the source. */
module Wrappers {

  datatype Option<+T> = None | Some(value: T)

  datatype Result<+R, +E> = Ok(value: R) | Err(error: E)
}
